=== FILE: README.md ===
# EF extraction and consistency check, modelled in Dafny

This project models the core of an echocardiography report checker. The
checker reads the ejection fraction (EF) from three regions of one report:

- the conclusion;
- the body ("text");
- the calculations table ("calcs").

It then reduces the three readings to one verdict: `good`, `discordant`
or `error`. The core exists in two close copies, `EFChecker`
(`python/ef_checker.py`) and `EFFallbackChecker`
(`python/check_ef_fallback.py`). Both are modelled, and the parts they
share are defined once.

## Structure

| file | module | what it holds |
|---|---|---|
| `options.dfy` | `Options` | `Option`, the stand-in for Python's `None` |
| `strings.dfy` | `Strings` | ASCII `\d`, `\s`, `\w`; `lower()`, `find()`, `split('\n')` |
| `decimal.dfy` | `Decimal` | the capture group's numerals; `float()` as exact decimal parsing into `real` |
| `patterns.dfy` | `Patterns` | the regular expressions as step sequences; `re.findall(p, s)[0]` |
| `extraction.dfy` | `Extraction` | the plausibility filter, the first-match-wins loop, the keyword anchor and window, the table rule |
| `consistency.dfy` | `Consistency` | regions, readings, `check_consistency` |
| `ef_checker.dfy` | `EFChecker` | the primary checker's lists and `extract_ef_values` |
| `ef_fallback_checker.dfy` | `EFFallbackChecker` | the fallback checker's lists, its section rule and `extract_ef_values` |
| `pipeline.dfy` | `Pipeline` | properties of extraction followed by `check_consistency` |

## Modelling choices

- Text is `string` (`seq<char>`) and is assumed to be ASCII. Lowercasing
  then keeps the length, so `len(text)` and `len(text.lower())` agree.
  `\d` is `0-9`. `\s` is `str.isspace()` on ASCII: space, the codes 9 to
  13, and 28 to 31. `\w` is letters, digits and `_`.
- Each regular expression is a sequence of steps: a literal word, a
  greedy run of a character class (`*` or `+`), exactly one character, an
  optional character (`?`), and the capture group `(\d+(?:\.\d+)?)`.
  `Patterns.Exec` runs the steps greedily, without backtracking. For the
  twelve patterns used here this gives the same match as Python's
  backtracking engine, for two reasons:
  - every greedy run is followed by a step that cannot start with a
    character of that run's class;
  - the capture group is followed only by `\s*%?`, by `\s*%`, or by
    `\s*%\s*` and a word, and a shorter numeral would be followed by a
    digit or a point.

  `re.findall(p, s)[0]` is the group of the match at the leftmost position
  where the pattern matches (`Patterns.FindFirst`). All texts are already
  lowercased, so `re.IGNORECASE` changes nothing.
- `float()` is `Decimal.ParseFloat`. It strips surrounding whitespace,
  allows one sign, and reads digits with at most one point into an exact
  `real`, so `55` and `55.0` are equal.
- The direct conclusion extraction (`_extract_conclusion_section_direct`)
  reads the source document. Its result is an input,
  `direct: Option<string>`:
  - `None` means no path was given;
  - `Some(c)` means a path was given and the extraction produced `c`,
    which may be empty. A failed extraction yields the empty text, so
    it behaves like an empty conclusion.
- The result dictionaries are the datatype `Consistency.Report`. It holds
  the status, the unchanged input map, and `numeric_values` when the
  status is not `error`.

Some details of the code that the model keeps:

- The calculations window is located by its keywords alone.
- The body search runs over the whole lowercased report.
- The window is cut from the lowercased text.
- Numerals may have any number of decimals.
- The table line scan looks at the line holding `ef` and at the line
  after it, and at no other line.
- The second pattern is `ef[:\s]*N\s*%?`.

Some calculations keywords are listed after a shorter keyword that is a
prefix of them, for example `'measurements table'` after
`'measurement'`. Such a keyword can never decide the anchor. This holds
for one keyword of the primary checker and four of the fallback checker.

## Model

| member | source | states |
|---|---|---|
| `Strings.Lower` | python/ef_checker.py:58 | lowercasing keeps the length, leaves no upper-case letter, and changes only upper-case letters, each to its lower-case partner |
| `Strings.LowerIdempotent` | python/ef_checker.py:64 | lowering an already lowered text changes nothing |
| `Strings.Find` | python/ef_checker.py:99 | `find` returns an index where the keyword occurs with no earlier occurrence, and none exactly when the keyword occurs nowhere |
| `Strings.SplitLines` | python/check_ef_fallback.py:146 | splitting gives at least one line, no line holds a newline, and joining the lines with newlines gives back the text |
| `Strings.SplitLinesUnique` | python/check_ef_fallback.py:146 | any cut of the text into newline-free lines that joins back to it is the split |
| `Decimal.NatRoundTrip` | python/ef_checker.py:190 | reading back the decimal digits of a whole number gives that number |
| `Decimal.PointZeroSameValue` | python/ef_checker.py:213 | a numeral and the same numeral with `.0` appended read as the same number |
| `Decimal.DecimalParses` | python/ef_checker.py:187-194 | every numeral the capture group can match is read by `float()`, as a number that is not negative |
| `Decimal.ParseFloat` | python/ef_checker.py:190 | a string without a digit, such as `''` or `'None'`, is never read as a number, and a non-empty string of digits reads as its value; `Decimal.FractionalNumeral` gives the value of a numeral with a point |
| `Decimal.DigitsValueAppend` | python/ef_checker.py:190 | appending digits to a numeral multiplies its value by ten per appended digit and adds the appended digits' value |
| `Decimal.FractionalNumeral` | python/ef_checker.py:190 | `W.F`, for digit strings `W` (not empty) and `F`, reads as the number formed by all the digits `WF` divided by ten once per digit of `F` |
| `Decimal.FractionKept` | python/ef_checker.py:190 | a fraction with a non-zero digit is never dropped: `W.F` reads as a larger number than `W`, as `55.5` does against `55` |
| `Decimal.Strip` | python/ef_checker.py:190 | the whitespace `float()` ignores: the result is the slice of the text left between its leading and its trailing whitespace, everything cut off is whitespace, and the result neither starts nor ends with whitespace |
| `Patterns.NumberEnd` | python/ef_checker.py:20 | the group matches exactly where a digit stands, and it takes the longest decimal numeral that starts there |
| `Patterns.Exec` | python/ef_checker.py:19-25 | a successful run captures a decimal numeral that lies in the text at or after where the run started, and a run of steps without the capture group leaves the capture as it was |
| `Patterns.MatchAt` | python/ef_checker.py:19-25 | a match that starts at a position captures a decimal numeral that lies at or after that position; what each pattern matches is stated by the shape lemmas below |
| `Patterns.NumberEndOfDigits` | python/ef_checker.py:21 | a run of digits followed by neither a digit nor a point is exactly what the group takes |
| `Patterns.TailRun` | python/ef_checker.py:20-24 | the tails `\s*%?` and `\s*%` never change the capture: `\s*%?` always matches, and `\s*%` matches exactly when a `%` follows the whitespace |
| `Patterns.LabelledNumber` | python/check_ef_fallback.py:17-25 | a word, a run of a character class of at least a given length, the group and a tail match at a position exactly when the word stands there, the run is long enough, a digit follows it and the tail matches after the numeral; the capture is the longest numeral at that digit |
| `Patterns.SeparatedNumber` | python/check_ef_fallback.py:23-24 | `w\s*<sep>\s*N` and a tail match at a position exactly when `w` stands there and the separator part matches after the whitespace that follows `w` |
| `Patterns.SeparatorThenNumber` | python/check_ef_fallback.py:23-24 | the separator part matches exactly when a separator stands there, a digit follows after any whitespace, and the tail matches after the numeral; the capture is the longest numeral at that digit |
| `Patterns.WordThenSpaces` | python/ef_checker.py:20 | `ejection\s+` in front of the rest of a pattern matches exactly when `ejection` stands there, at least one whitespace character follows, and the rest matches after that whitespace, with the same capture |
| `Patterns.NumberPercentWord` | python/ef_checker.py:22-23 | `N\s*%\s*w` matches at a position exactly when a digit stands there, a `%` follows the numeral after any whitespace, and `w` follows after any further whitespace; the capture is the numeral |
| `Patterns.EfLabelMatch` | python/ef_checker.py:21 | `ef[:\s]*N\s*%?` matches at a position exactly when `ef` stands there and a digit follows after any colons and whitespace; the capture is the longest numeral at that digit, whatever follows it |
| `Patterns.PatternShapes` | python/check_ef_fallback.py:16-26 | each pattern of the two lists and of the table rule is an instance of one of the shapes the lemmas above describe |
| `Patterns.FirstMatchPos` | python/ef_checker.py:115 | the position found is one where the pattern matches, no earlier position matches, and nothing is found only when no position matches |
| `Patterns.FindFirst` | python/ef_checker.py:115-118 | `matches[0]` is the group of the match at the leftmost position where the pattern matches, which is a decimal numeral, and the list is empty exactly when the pattern matches at no position |
| `Patterns.FindFirstLeftmost` | python/ef_checker.py:115-118 | wherever the pattern matches with no match at an earlier position, `matches[0]` is the group of that match |
| `Extraction.IsValidEF` | python/ef_checker.py:187-194 | a valid value has a digit, so a string that `float()` rejects for want of one is not valid, and a string of digits is valid exactly when its value lies from 10 to 90 |
| `Extraction.ValidWholeNumbers` | python/ef_checker.py:187-194 | a whole number passes the plausibility filter exactly when it lies from 10 to 90 |
| `Extraction.ValidFractionalNumbers` | python/ef_checker.py:187-194 | `W.F` passes the plausibility filter exactly when the number formed by its digits lies from 10 to 90 times ten to the length of `F` |
| `Extraction.JustAboveNinety` | python/ef_checker.py:190-192 | `90.5` is above the upper bound and fails the plausibility filter |
| `Extraction.FirstValid` | python/ef_checker.py:114-120 | the value is the first match of the first pattern whose first match is plausible, with `%` appended; every earlier pattern's first match is absent or implausible; nothing is found exactly when no pattern's first match is plausible |
| `Extraction.FirstValidIs` | python/ef_checker.py:114-120 | when one pattern's first match is plausible and no earlier pattern's is, the value is that match with `%` appended |
| `Extraction.SecondPatternWins` | python/ef_checker.py:114-120 | when the first pattern's first match is absent or implausible and the second's is plausible, the second decides |
| `Extraction.FirstAccepting` | python/ef_checker.py:114-119 | the index found is that of a pattern whose first match is plausible, every earlier pattern's first match is absent or implausible, and no index is found only when no pattern's first match is plausible |
| `Extraction.FirstValidStep` | python/ef_checker.py:114-120 | one turn of the loop: a plausible first match of the head pattern is returned, and otherwise the rest of the list decides |
| `Extraction.OnlyFirstMatchesMatter` | python/ef_checker.py:132-137 | two texts on which every pattern has the same first match give the same value, so later matches of a pattern are never tried |
| `Extraction.FirstValidAppend` | python/check_ef_fallback.py:16-26 | a longer pattern list is tried as its first part, then its second part only if the first part finds nothing |
| `Extraction.FindKeyword` | python/ef_checker.py:96-106 | the anchor is where the first keyword in list order that occurs anywhere first occurs; every earlier keyword is absent; there is no anchor exactly when no keyword occurs |
| `Extraction.FirstPresent` | python/ef_checker.py:97-102 | the deciding keyword is one that occurs, every keyword listed before it occurs nowhere, and there is none only when no keyword occurs |
| `Extraction.AnchorPriority` | python/check_ef_fallback.py:95-99 | once any keyword occurs there is an anchor, and it belongs to that keyword or to one listed before it |
| `Extraction.AnchorOfFirstPresent` | python/ef_checker.py:97-102 | when a keyword occurs and no earlier keyword does, the anchor is that keyword's first occurrence, whatever other keywords occur earlier in the text |
| `Extraction.ShadowedNeverDecides` | python/ef_checker.py:97-102 | a keyword listed after one of its own prefixes never decides the anchor |
| `Extraction.WindowBounds` | python/ef_checker.py:108-111 | the window holds the anchor, spans at most 1000 characters, and covers exactly the positions inside the text that are at most 500 before or fewer than 500 after the anchor |
| `Extraction.Section` | python/check_ef_fallback.py:95-107 | there is no section exactly when no keyword occurs; otherwise the section is the lowered text cut at the window around the first occurrence of the first keyword in list order that occurs, and it is at most 1000 characters long |
| `Extraction.SectionOfFirstPresent` | python/ef_checker.py:97-111 | when a keyword occurs and no keyword listed before it does, the section is the window around that keyword's first occurrence |
| `Extraction.WindowHoldsOccurrence` | python/ef_checker.py:108-111 | the window around an occurrence of a keyword of at most 500 characters holds the whole keyword |
| `Extraction.SectionHoldsKeyword` | python/check_ef_fallback.py:95-107 | the section holds the winning keyword in full, at the anchor's offset in the window |
| `Extraction.HasWordEf` | python/check_ef_fallback.py:148 | a line that holds the word `ef` holds the letters `ef` |
| `Extraction.StandaloneEf` | python/check_ef_fallback.py:148 | `ef` with a non-word character or the line's end on each side is found as the word `ef` |
| `Extraction.FirstNumber` | python/check_ef_fallback.py:150-152 | the first number of a line is the longest numeral that starts at the line's first digit, and there is none exactly when the line has no digit |
| `Extraction.FirstNumberAt` | python/check_ef_fallback.py:150-152 | wherever the first digit of a line stands, the first number is the longest numeral that starts there |
| `Extraction.LineCandidate` | python/check_ef_fallback.py:148-163 | a line gives a value only if it holds the whole word `ef`; then the line's own plausible first number is the value, and failing that the next line's plausible first number is, when there is a next line; there is no other value |
| `Extraction.FirstYieldingLine` | python/check_ef_fallback.py:146-163 | the scan stops at the first line that gives a value, and every line before it gives none |
| `Extraction.ScanLines` | python/check_ef_fallback.py:146-163 | the scan gives the value of a line that gives one, every earlier line giving none, and nothing exactly when no line gives a value |
| `Extraction.ScanLinesFirst` | python/check_ef_fallback.py:146-163 | whichever line is the first to give a value, the scan gives that line's value |
| `Extraction.TableRule` | python/check_ef_fallback.py:137-171 | a plausible first match of `ef\s*[:\-]\s*N` decides; failing that, a value of the line scan decides; failing both, a plausible first match of `ef\s+N` decides; nothing is found exactly when all three stages fail |
| `Consistency.RemoveAll` | python/ef_checker.py:213 | removing `%` drops every `%` and keeps every other character as often as it occurs, and a string without `%` is unchanged |
| `Consistency.RemoveAllAppend` | python/ef_checker.py:213 | removal works part by part on a concatenation, so the kept characters stay in their order |
| `Consistency.Parsed` | python/ef_checker.py:208-216 | an entry parses only when it is present and has a digit, so `None`, `''` and `'None'` never do; a present entry with a digit and no `%` parses as `float()` reads it; `Consistency.PercentsIgnored` covers entries with `%` |
| `Consistency.PercentsIgnored` | python/ef_checker.py:210-213 | every `%` in an entry other than `'None'` is ignored wherever it stands: the entry parses exactly as it does with all its `%` removed, so `55%`, `55%%`, `5%5` and `%55` all parse as `55` does |
| `Consistency.NumericValues` | python/ef_checker.py:208-216 | the numeric map holds exactly the entries that are present, neither `''` nor `'None'`, and parse, each with its parsed number |
| `Consistency.Readings` | python/ef_checker.py:50-54 | the readings map has exactly the keys conclusion, text and calcs, each holding the value given for it |
| `Consistency.DistinctNumbers` | python/ef_checker.py:226 | the set of distinct numbers holds every number of the map and nothing else, and has at least one and at most as many elements as the map has entries |
| `Consistency.OneDistinctIffAgree` | python/ef_checker.py:226-228 | a non-empty numeric map has exactly one distinct number exactly when all its numbers are equal |
| `Consistency.CheckConsistency` | python/ef_checker.py:196-249 | the input map is passed through; `error`, with no numeric map, exactly when nothing parses; `good` exactly when something parses and all parsed numbers are equal; `discordant` exactly when two parsed numbers differ; the numeric map is exactly the parsed entries |
| `EFChecker.ShadowedCalcKeyword` | python/ef_checker.py:34-37 | `'measurements'`, listed after `'measurement'`, never decides the calculations anchor |
| `EFChecker.ExtractFirstEF` | python/ef_checker.py:129-144 | the body value is the first match of some pattern with `%` appended, that match is plausible, every earlier pattern's first match is absent or implausible, and the value is absent exactly when no pattern's first match is plausible |
| `EFChecker.ExtractFromSection` | python/ef_checker.py:92-127 | the section value is a plausible reading; there is none when no keyword occurs; whenever there is a section, the value is the pattern list's value over it |
| `EFChecker.NoEjectionFraction` | python/ef_checker.py:20 | a text without the letter `j` has no `ejection fraction` match |
| `EFChecker.EfThenDigits` | python/ef_checker.py:21 | in `ef N` and in `ef N%`, for a digit string `N`, the `ef` label's first match is `N` |
| `EFChecker.EfLabelFirst` | python/ef_checker.py:114-120 | a pattern list that starts with the `ejection fraction` and `ef` patterns reads `ef N` and `ef N%` as `N%` for a plausible digit string `N` |
| `EFChecker.PercentSignOptional` | python/ef_checker.py:19-25 | `ef N` and `ef N%` give the same body value `N%` for a plausible digit string `N` |
| `EFChecker.ExtractEFValues` | python/ef_checker.py:39-90 | the result has exactly the keys conclusion, text and calcs, each absent or a plausible reading; the text value comes from the pattern list over the whole lowered report and the calcs value from the calculations window; a non-empty direct conclusion text replaces the conclusion keyword window |
| `EFChecker.CaseInsensitive` | python/ef_checker.py:57-58 | the readings do not depend on letter case in the report |
| `EFChecker.DirectConclusionIgnoresReport` | python/ef_checker.py:61-65 | with a non-empty direct conclusion, the conclusion reading does not depend on the report text |
| `EFChecker.EmptyDirectConclusionFallsBack` | python/ef_checker.py:61-75 | an empty direct conclusion text gives the same readings as giving no path |
| `EFFallbackChecker.ShadowedCalcKeywords` | python/check_ef_fallback.py:35-39 | `'measurements'`, `'measurements table'`, `'measurement table'` and `'calculations table'` never decide the calculations anchor, because each is listed after one of its own prefixes |
| `EFFallbackChecker.ExtractFirstEF` | python/check_ef_fallback.py:179-193 | the body value is the first match of one of the nine patterns with `%` appended, that match is plausible, every earlier pattern's first match is absent or implausible, and the value is absent exactly when no pattern's first match is plausible |
| `EFFallbackChecker.PercentSignOptional` | python/check_ef_fallback.py:16-26 | `ef N` and `ef N%` give the same body value `N%` in this copy too |
| `EFFallbackChecker.ExtractFromSection` | python/check_ef_fallback.py:89-129 | the value is a plausible reading, absent when no keyword occurs; outside the calculations region it is the pattern list's value over the window; in the calculations region a table-rule value wins, and the pattern list decides only when the table rule finds nothing |
| `EFFallbackChecker.ExtractEFValues` | python/check_ef_fallback.py:58-87 | the result has exactly the three keys, each absent or a plausible reading; conclusion and calcs come from their keyword windows, calcs with the table rule, and text from the nine-pattern list over the whole lowered report |
| `EFFallbackChecker.PatternsExtendPrimary` | python/check_ef_fallback.py:16-26 | the nine-pattern list starts with the primary checker's five patterns, in the same order |
| `EFFallbackChecker.FirstEFAgreesWithPrimary` | python/check_ef_fallback.py:182-187 | wherever the five-pattern list finds a value, the nine-pattern list finds the same one |
| `EFFallbackChecker.ReadingsAgreeWithPrimary` | python/check_ef_fallback.py:70-76 | without a direct conclusion, whenever the primary checker reads a conclusion or body value, the fallback checker reads the same one |
| `Pipeline.ReadingParsesInRange` | python/ef_checker.py:208-216 | every reading the extractors emit parses to a number from 10 to 90 |
| `Pipeline.VerdictOfPlausibleReadings` | python/check_ef_fallback.py:208-241 | for three absent-or-plausible readings, every number in the verdict lies from 10 to 90, and the verdict is `error` exactly when all three readings are absent |
| `Pipeline.PlausibleReadingsParse` | python/ef_checker.py:208-216 | among absent-or-plausible readings, exactly the present ones parse, each to a number from 10 to 90 |
| `Pipeline.PrimaryVerdict` | python/check_ef.py:28-30 | the primary checker's verdict keeps its readings, holds only numbers from 10 to 90, and is `error` exactly when no region gives a value |
| `Pipeline.FallbackVerdict` | python/check_ef_fallback.py:264-267 | the fallback checker's verdict keeps its readings, holds only numbers from 10 to 90, and is `error` exactly when no region gives a value |
| `Pipeline.TwoAgreeingGood` | python/ef_checker.py:226-230 | two regions whose readings parse to the same number, and no third region, give `good` |
| `Pipeline.ZeroFractionAgrees` | python/ef_checker.py:226-234 | readings `N%` and `N.0%` in two regions give `good` |
| `Pipeline.FractionDiscordant` | python/ef_checker.py:226-241 | readings `W.F%` and `W%` in two regions, such as `55.5%` and `55%`, give `discordant` whenever the fraction has a non-zero digit |
| `Pipeline.DifferentNumbersDiscordant` | python/check_ef_fallback.py:235-241 | two regions whose readings parse to different numbers make the verdict `discordant`, whatever the third region holds |

## Left out

- Reading files and stripping RTF markup are left out. This covers
  `extract_text_from_rtf` and the regex chain inside
  `_extract_conclusion_section_direct`. Their output is an input of the
  model: the report text, and the optional direct conclusion text.
- `python/convert_rtf_to_docx.py` is not part of this model. It automates
  a word processor and makes no decisions.
- `python/generate_pdf.py` is not part of this model. It renders
  documents, uses the file system and reads the clock.
- The command-line `main()` functions of `python/check_ef.py` and
  `python/check_ef_fallback.py` chain `extract_ef_values` and
  `check_consistency`. `Pipeline.PrimaryVerdict` and
  `Pipeline.FallbackVerdict` model that chain. What they do around it
  is left out: reading the path argument, reading the file, printing the
  result as JSON, and the exit codes.
- The error results those `main()` functions print are left out. There
  is one for a missing path argument and one for a failed file read,
  each with `status: error` and an empty `values` map. Both come from
  I/O, and every modelled verdict has all three keys.
- The `main()` of `python/ef_checker.py` is a demonstration on a
  built-in sample report and is not modelled.
- Logging and the broad `try/except` handlers are left out. Every
  modelled function is total, so no handler is ever reached.
- The `message` strings of `check_consistency` are left out, including
  the dictionary text inside the `discordant` message.
- Floating point is left out. Numbers are exact reals, so rounding in
  `float()` is not modelled. Two numerals that differ only beyond double
  precision compare as different here.
- Parts of `float()` that extracted readings never use are left out:
  exponents, `_` digit separators, `inf`, `nan` and non-ASCII digits.
- Unicode is left out. Case mappings that change a string's length, and
  Unicode whitespace and word characters outside ASCII, are not modelled.
- Full regular-expression semantics are left out. Only the twelve
  patterns the checkers use are modelled, through the step language.

=== FILE: consistency.dfy ===
/** `check_consistency`: reduces the three region readings to one verdict. */
module Consistency {
  import opened Options
  import opened Strings
  import opened Decimal

  /** The keys of the readings map: `'conclusion'`, `'text'` and `'calcs'`. */
  datatype Region = Conclusion | Text | Calcs

  /** The readings map: region to a string such as `"55%"`, or none. */
  type Reading = map<Region, Option<string>>

  /** The readings map with one entry per region. */
  function Readings(conclusion: Option<string>, text: Option<string>, calcs: Option<string>): (r: Reading)
    ensures r.Keys == {Conclusion, Text, Calcs}
    ensures r[Conclusion] == conclusion && r[Text] == text && r[Calcs] == calcs
  {
    map[Conclusion := conclusion, Text := text, Calcs := calcs]
  }

  datatype Status = Good | Discordant | Error

  /** The result dictionary: `status`, the input `values` unchanged and,
      unless the status is `Error`, `numeric_values`. */
  datatype Report = Report(status: Status, values: Reading, numericValues: Option<map<Region, real>>)

  /** `value.replace(c, '')`: every `c` goes, every other character stays
      as often as it occurs; with `RemoveAllAppend`, the order is kept too. */
  function RemoveAll(s: string, c: char): (r: string)
    ensures forall x :: x in r <==> x in s && x != c
    ensures multiset(r) == multiset(s)[c := 0]
    ensures c !in s ==> r == s
    decreases |s|
  {
    if |s| == 0 then ""
    else if s[0] == c then
      assert s == [s[0]] + s[1..];
      assert multiset(s) == multiset{c} + multiset(s[1..]);
      RemoveAll(s[1..], c)
    else
      var rest := RemoveAll(s[1..], c);
      assert s == [s[0]] + s[1..];
      [s[0]] + rest
  }

  /** Removing a character from a concatenation removes it from each part
      and keeps the parts in order. */
  lemma {:induction false} RemoveAllAppend(a: string, b: string, c: char)
    ensures RemoveAll(a + b, c) == RemoveAll(a, c) + RemoveAll(b, c)
    decreases |a|
  {
    if |a| == 0 {
      assert a + b == b;
    } else {
      assert (a + b)[0] == a[0];
      assert (a + b)[1..] == a[1..] + b;
      RemoveAllAppend(a[1..], b, c);
    }
  }

  /** The number one entry contributes: present, neither `''` nor `'None'`,
      and readable by `float()` once every `%` is removed. */
  function Parsed(v: Option<string>): (r: Option<real>)
    ensures r.Some? ==> v.Some? && !NoDigit(v.value)
    ensures v.Some? && '%' !in v.value && !NoDigit(v.value) ==> r == ParseFloat(v.value)
  {
    assert NoDigit("") && NoDigit("None");
    if v.Some? && v.value != "" && v.value != "None" then
      NoDigitRemoveAll(v.value, '%');
      ParseFloat(RemoveAll(v.value, '%'))
    else None
  }

  /** Every `%` is ignored, wherever it stands: `55%`, `55%%`, `5%5` and
      `%55` all read as `55`. */
  lemma PercentsIgnored(s: string)
    requires s != "None"
    ensures Parsed(Some(s)) == Parsed(Some(RemoveAll(s, '%')))
  {
    assert '%' !in RemoveAll(s, '%');
  }

  lemma NoDigitRemoveAll(s: string, c: char)
    ensures NoDigit(s) ==> NoDigit(RemoveAll(s, c))
  {
    var r := RemoveAll(s, c);
    if NoDigit(s) {
      forall i | 0 <= i < |r|
        ensures !IsDigit(r[i])
      {
        assert r[i] in s;
      }
    }
  }

  /** `valid_values`: exactly the entries that parse, with their numbers. */
  function NumericValues(values: Reading): (m: map<Region, real>)
    ensures forall k :: k in m <==> k in values && Parsed(values[k]).Some?
    ensures forall k :: k in m ==> Parsed(values[k]) == Some(m[k])
  {
    map k | k in values && Parsed(values[k]).Some? :: Parsed(values[k]).value
  }

  /** Some entry parses. */
  ghost predicate AnyParses(values: Reading) {
    exists k :: k in values && Parsed(values[k]).Some?
  }

  /** All entries that parse give the same number. */
  ghost predicate AllAgree(values: Reading) {
    forall k1, k2 :: k1 in values && k2 in values && Parsed(values[k1]).Some? && Parsed(values[k2]).Some?
      ==> Parsed(values[k1]) == Parsed(values[k2])
  }

  /** `set(m.values())`: every value occurs, nothing else does, and there
      are never more distinct numbers than regions. */
  function DistinctNumbers(m: map<Region, real>): (r: set<real>)
    ensures forall k :: k in m ==> m[k] in r
    ensures forall x :: x in r ==> exists k :: k in m && m[k] == x
    ensures |r| <= |m|
    ensures |m| > 0 ==> |r| >= 1
  {
    ValuesBound(m, m.Keys);
    set k | k in m :: m[k]
  }

  lemma {:induction false} ValuesBound(m: map<Region, real>, ks: set<Region>)
    requires ks <= m.Keys
    ensures |set k | k in ks :: m[k]| <= |ks|
    decreases ks
  {
    if ks != {} {
      var k :| k in ks;
      ValuesBound(m, ks - {k});
      assert (set j | j in ks :: m[j]) == (set j | j in ks - {k} :: m[j]) + {m[k]};
    }
  }

  /** A non-empty map has one distinct value exactly when all its values
      are equal. */
  lemma OneDistinctIffAgree(m: map<Region, real>)
    requires m.Keys != {}
    ensures |DistinctNumbers(m)| == 1 <==> forall k1, k2 :: k1 in m && k2 in m ==> m[k1] == m[k2]
  {
    var d := DistinctNumbers(m);
    var k :| k in m;
    assert m[k] in d;
    if |d| == 1 {
      assert |d - {m[k]}| == 0;
      assert d == {m[k]};
      assert forall k1 :: k1 in m ==> m[k1] in d;
    }
    if forall k1, k2 :: k1 in m && k2 in m ==> m[k1] == m[k2] {
      assert d == {m[k]};
    }
  }

  lemma AgreeOnNumeric(values: Reading, m: map<Region, real>)
    requires forall k :: k in m <==> k in values && Parsed(values[k]).Some?
    requires forall k :: k in m ==> Parsed(values[k]) == Some(m[k])
    ensures AllAgree(values) <==> forall k1, k2 :: k1 in m && k2 in m ==> m[k1] == m[k2]
    ensures AnyParses(values) <==> m.Keys != {}
  {
    if m.Keys != {} {
      var k :| k in m;
    }
  }

  /** The three-way verdict: `Error` when no entry parses, `Good` when the
      parsed numbers form a set of exactly one number (so `55` and `55.0`
      agree), `Discordant` when two entries disagree. The input map is
      passed through unchanged and the numeric map holds exactly the
      entries that parse. */
  function CheckConsistency(values: Reading): (r: Report)
    ensures r.values == values
    ensures r.status == Error <==> !AnyParses(values)
    ensures r.status == Error <==> r.numericValues.None?
    ensures r.numericValues.Some? ==>
      forall k :: k in r.numericValues.value <==> k in values && Parsed(values[k]).Some?
    ensures r.numericValues.Some? ==>
      forall k :: k in r.numericValues.value ==> Parsed(values[k]) == Some(r.numericValues.value[k])
    ensures r.status == Good <==> AnyParses(values) && AllAgree(values)
    ensures r.status == Discordant <==> AnyParses(values) && !AllAgree(values)
  {
    var numeric := NumericValues(values);
    AgreeOnNumeric(values, numeric);
    if numeric.Keys == {} then
      Report(Error, values, None)
    else
      OneDistinctIffAgree(numeric);
      if |DistinctNumbers(numeric)| == 1 then
        Report(Good, values, Some(numeric))
      else
        Report(Discordant, values, Some(numeric))
  }
}

=== FILE: decimal.dfy ===
/** Decimal numerals and the part of Python's `float()` the checkers use,
    with exact `real` arithmetic in place of binary floating point. */
module Decimal {
  import opened Options
  import opened Strings

  predicate AllDigits(s: string) {
    forall i :: 0 <= i < |s| ==> IsDigit(s[i])
  }

  function DigitValue(c: char): nat
    requires IsDigit(c)
  {
    c as int - '0' as int
  }

  /** The value of a string of decimal digits, most significant first. */
  function DigitsValue(s: string): nat
    requires AllDigits(s)
    decreases |s|
  {
    if |s| == 0 then 0 else DigitsValue(s[..|s| - 1]) * 10 + DigitValue(s[|s| - 1])
  }

  function Pow10(n: nat): (r: nat)
    ensures r >= 1
  {
    if n == 0 then 1 else 10 * Pow10(n - 1)
  }

  /** The number of leading digits of `s`. */
  function LeadingDigits(s: string): (k: nat)
    ensures k <= |s|
    ensures forall i :: 0 <= i < k ==> IsDigit(s[i])
    ensures k == |s| || !IsDigit(s[k])
    decreases |s|
  {
    if |s| > 0 && IsDigit(s[0]) then 1 + LeadingDigits(s[1..]) else 0
  }

  /** The strings the capture group `(\d+(?:\.\d+)?)` matches: one or more
      digits, optionally followed by a point and one or more digits. */
  predicate IsDecimal(d: string) {
    var k := LeadingDigits(d);
    k > 0 && (k == |d| || (d[k] == '.' && k + 1 < |d| && AllDigits(d[k + 1..])))
  }

  /** The value of the digits after a decimal point. */
  function FractionValue(f: string): real
    requires AllDigits(f)
  {
    DigitsValue(f) as real / Pow10(|f|) as real
  }

  /** The number of leading whitespace characters of `s`. */
  function LeadingSpaces(s: string): (n: nat)
    ensures n <= |s|
    ensures forall i :: 0 <= i < n ==> IsSpace(s[i])
    ensures n == |s| || !IsSpace(s[n])
    decreases |s|
  {
    if |s| > 0 && IsSpace(s[0]) then 1 + LeadingSpaces(s[1..]) else 0
  }

  /** The number of trailing whitespace characters of `s`. */
  function TrailingSpaces(s: string): (n: nat)
    ensures n <= |s|
    ensures forall i :: |s| - n <= i < |s| ==> IsSpace(s[i])
    ensures n == |s| || !IsSpace(s[|s| - n - 1])
    decreases |s|
  {
    if |s| > 0 && IsSpace(s[|s| - 1]) then
      var t := s[..|s| - 1];
      var n := TrailingSpaces(t);
      assert forall i :: |t| - n <= i < |t| ==> s[i] == t[i];
      1 + n
    else 0
  }

  /** `s` without its leading whitespace: a suffix of `s`, everything cut
      off is whitespace, and what is left does not start with whitespace. */
  function DropLeadingSpaces(s: string): (r: string)
    ensures |r| <= |s| && r == s[|s| - |r|..]
    ensures forall i :: 0 <= i < |s| - |r| ==> IsSpace(s[i])
    ensures |r| > 0 ==> !IsSpace(r[0])
  {
    s[LeadingSpaces(s)..]
  }

  /** `s` without its trailing whitespace: a prefix of `s`, everything cut
      off is whitespace, and what is left does not end with whitespace. */
  function DropTrailingSpaces(s: string): (r: string)
    ensures |r| <= |s| && r == s[..|r|]
    ensures forall i :: |r| <= i < |s| ==> IsSpace(s[i])
    ensures |r| > 0 ==> !IsSpace(r[|r| - 1])
  {
    s[..|s| - TrailingSpaces(s)]
  }

  /** `str.strip()` on ASCII text: the slice of `s` left once the
      whitespace at both ends is cut off. */
  function Strip(s: string): (r: string)
    ensures |r| > 0 ==> !IsSpace(r[0]) && !IsSpace(r[|r| - 1])
    ensures
      var i := LeadingSpaces(s);
      && i + |r| <= |s| && r == s[i..i + |r|]
      && (forall k :: 0 <= k < i ==> IsSpace(s[k]))
      && (forall k :: i + |r| <= k < |s| ==> IsSpace(s[k]))
  {
    var i := LeadingSpaces(s);
    var l := s[i..];
    var r := DropTrailingSpaces(l);
    assert forall k :: i + |r| <= k < |s| ==> s[k] == l[k - i];
    r
  }

  /** An unsigned numeral: digits with at most one point and at least one
      digit (`55`, `55.0`, `55.`, `.5`). */
  function ParseUnsigned(u: string): Option<real> {
    match IndexOf(u, '.')
    case None => if |u| > 0 && AllDigits(u) then Some(DigitsValue(u) as real) else None
    case Some(i) =>
      var whole, frac := u[..i], u[i + 1..];
      if AllDigits(whole) && AllDigits(frac) && |whole| + |frac| > 0
      then Some(DigitsValue(whole) as real + FractionValue(frac))
      else None
  }

  /** `float(s)` for decimal numerals: surrounding whitespace is ignored and
      one leading sign is allowed. A string without a digit, such as `''`
      or `'None'`, is never read, and a string of digits reads as its
      value. Exponents, digit separators, `inf` and `nan` are not part of
      this model. */
  function ParseFloat(s: string): (r: Option<real>)
    ensures r.Some? ==> !NoDigit(s)
    ensures |s| > 0 && AllDigits(s) ==> r == Some(DigitsValue(s) as real)
  {
    NoDigitParts(s);
    DigitsUnsigned(s);
    var t := Strip(s);
    if |t| > 0 && (t[0] == '+' || t[0] == '-') then
      match ParseUnsigned(t[1..])
      case None => None
      case Some(x) => Some(if t[0] == '-' then -x else x)
    else ParseUnsigned(t)
  }

  lemma DigitsUnsigned(s: string)
    ensures |s| > 0 && AllDigits(s) ==> Strip(s) == s && ParseUnsigned(s) == Some(DigitsValue(s) as real)
  {
    if |s| > 0 && AllDigits(s) {
      StripPlain(s);
      assert '.' !in s;
    }
  }

  /** The decimal digits of `n`, most significant first, without leading
      zeros. */
  function NatToString(n: nat): (s: string)
    ensures |s| > 0 && AllDigits(s)
    decreases n
  {
    var d := ['0' + (n % 10) as char];
    if n < 10 then d else NatToString(n / 10) + d
  }

  lemma {:induction false} NatToStringValue(n: nat)
    ensures DigitsValue(NatToString(n)) == n
    decreases n
  {
    var s := NatToString(n);
    if n >= 10 {
      NatToStringValue(n / 10);
      assert s[..|s| - 1] == NatToString(n / 10);
    }
  }

  /** A numeral that starts with a digit and ends without whitespace is
      read by `ParseUnsigned` alone. */
  lemma PlainNumeral(s: string)
    requires |s| > 0 && IsDigit(s[0]) && !IsSpace(s[|s| - 1])
    ensures ParseFloat(s) == ParseUnsigned(s)
  {
    StripPlain(s);
    assert s[0] != '+' && s[0] != '-';
  }

  lemma StripPlain(s: string)
    requires |s| > 0 && !IsSpace(s[0]) && !IsSpace(s[|s| - 1])
    ensures Strip(s) == s
  {
    assert DropLeadingSpaces(s) == s;
    assert DropTrailingSpaces(s) == s;
  }

  /** Reading back the numeral printed for `n` gives `n`. */
  lemma NatRoundTrip(n: nat)
    ensures ParseFloat(NatToString(n)) == Some(n as real)
  {
    NatToStringValue(n);
  }

  /** A zero fraction does not change the value: `55` and `55.0` read as
      the same number. */
  lemma PointZeroSameValue(s: string)
    requires |s| > 0 && AllDigits(s)
    ensures ParseFloat(s + ".0") == ParseFloat(s)
  {
    var u := s + ".0";
    PlainNumeral(u);
    PointZeroUnsigned(s);
  }

  /** Appending digits shifts the value left by one decimal place per
      appended digit. */
  lemma {:induction false} DigitsValueAppend(a: string, b: string)
    requires AllDigits(a) && AllDigits(b)
    ensures DigitsValue(a + b) == DigitsValue(a) * Pow10(|b|) + DigitsValue(b)
    decreases |b|
  {
    if |b| == 0 {
      assert a + b == a;
    } else {
      var b' := b[..|b| - 1];
      var ab := a + b;
      assert ab[..|ab| - 1] == a + b';
      assert ab[|ab| - 1] == b[|b| - 1];
      DigitsValueAppend(a, b');
      var d := DigitValue(b[|b| - 1]);
      assert DigitsValue(ab) == DigitsValue(a + b') * 10 + d;
      assert DigitsValue(b) == DigitsValue(b') * 10 + d;
      assert Pow10(|b|) == 10 * Pow10(|b'|);
      ShiftStep(DigitsValue(a), Pow10(|b'|), DigitsValue(b'), d);
    }
  }

  /** One more digit on the right of `x * p + y`. */
  lemma ShiftStep(x: nat, p: nat, y: nat, d: nat)
    ensures (x * p + y) * 10 + d == x * (10 * p) + (y * 10 + d)
  {
  }

  /** A numeral with a point reads as all its digits taken together,
      divided by ten once per digit after the point: `float("55.5")` is
      555 / 10. */
  lemma FractionalNumeral(w: string, f: string)
    requires |w| > 0 && AllDigits(w) && AllDigits(f)
    ensures ParseFloat(w + "." + f) == Some(DigitsValue(w + f) as real / Pow10(|f|) as real)
  {
    var u := w + "." + f;
    PointShape(w, f);
    PlainNumeral(u);
    UnsignedWithPoint(u, |w|);
    FractionSum(w, f);
  }

  /** A numeral with digits on both sides of its first point reads as its
      whole part plus its fraction. */
  lemma UnsignedWithPoint(u: string, i: nat)
    requires IndexOf(u, '.') == Some(i) && i > 0
    requires AllDigits(u[..i]) && AllDigits(u[i + 1..])
    ensures ParseUnsigned(u) == Some(DigitsValue(u[..i]) as real + FractionValue(u[i + 1..]))
  {
  }

  /** `w + "." + f` starts with a digit, ends with a non-space and splits
      at its first point into `w` and `f`. */
  lemma PointShape(w: string, f: string)
    requires |w| > 0 && AllDigits(w) && AllDigits(f)
    ensures var u := w + "." + f;
      && IsDigit(u[0]) && !IsSpace(u[|u| - 1])
      && IndexOf(u, '.') == Some(|w|) && u[..|w|] == w && u[|w| + 1..] == f
  {
    var u := w + "." + f;
    assert u[0] == w[0];
    if |f| > 0 {
      assert u[|u| - 1] == f[|f| - 1];
    }
    NoPointInDigits(w);
    assert u[..|w|] == w;
    IndexOfFirst(u, '.', |w|);
    assert u[|w| + 1..] == f;
  }

  /** The whole part plus the fraction is all the digits over a power of
      ten. */
  lemma FractionSum(w: string, f: string)
    requires AllDigits(w) && AllDigits(f)
    ensures DigitsValue(w) as real + FractionValue(f) == DigitsValue(w + f) as real / Pow10(|f|) as real
  {
    DigitsValueAppend(w, f);
    ShiftedSum(DigitsValue(w + f), DigitsValue(w), Pow10(|f|), DigitsValue(f));
  }

  /** `n = x * p + y` read over `p` is `x + y / p`. */
  lemma ShiftedSum(n: nat, x: nat, p: nat, y: nat)
    requires p >= 1 && n == x * p + y
    ensures n as real / p as real == x as real + y as real / p as real
  {
    ProductAsReal(x, p);
    ShiftDivide(x as real, y as real, p as real);
  }

  lemma {:induction false} ProductAsReal(a: nat, b: nat)
    ensures (a * b) as real == a as real * b as real
    decreases b
  {
    if b > 0 {
      ProductAsReal(a, b - 1);
      assert a * b == a * (b - 1) + a;
    }
  }

  lemma ShiftDivide(x: real, y: real, p: real)
    requires p > 0.0
    ensures (x * p + y) / p == x + y / p
  {
    assert (x + y / p) * p == x * p + y;
  }

  /** A fraction with a non-zero digit is never dropped: `W.F` and `W`
      read as different numbers, as `55.5` and `55` do. */
  lemma FractionKept(w: string, f: string)
    requires |w| > 0 && AllDigits(w) && AllDigits(f) && DigitsValue(f) > 0
    ensures ParseFloat(w + "." + f).Some? && ParseFloat(w).Some?
    ensures ParseFloat(w + "." + f).value > ParseFloat(w).value
  {
    FractionalNumeral(w, f);
    FractionSum(w, f);
    PositiveQuotient(DigitsValue(f) as real, Pow10(|f|) as real);
    assert FractionValue(f) > 0.0;
    assert ParseFloat(w) == Some(DigitsValue(w) as real);
  }

  lemma PositiveQuotient(n: real, p: real)
    requires n > 0.0 && p > 0.0
    ensures n / p > 0.0
  {
    assert (n / p) * p == n;
  }

  lemma PointZeroUnsigned(s: string)
    requires |s| > 0 && AllDigits(s)
    ensures ParseUnsigned(s + ".0") == Some(DigitsValue(s) as real)
  {
    PointZeroShape(s);
    UnsignedPointZero(s + ".0", |s|, s);
  }

  /** `s + ".0"` splits at its only point into `s` and `"0"`. */
  lemma PointZeroShape(s: string)
    requires AllDigits(s)
    ensures IndexOf(s + ".0", '.') == Some(|s|)
    ensures (s + ".0")[..|s|] == s && (s + ".0")[|s| + 1..] == "0"
  {
    var u := s + ".0";
    assert u[..|s|] == s;
    NoPointInDigits(s);
    IndexOfFirst(u, '.', |s|);
    assert u[|s| + 1..] == "0";
  }

  /** A numeral whose only fraction digit after its first point is `0`
      reads as its whole part. */
  lemma UnsignedPointZero(u: string, i: nat, whole: string)
    requires IndexOf(u, '.') == Some(i)
    requires whole == u[..i] && u[i + 1..] == "0" && AllDigits(whole)
    ensures ParseUnsigned(u) == Some(DigitsValue(whole) as real)
  {
    FractionOfZero();
  }

  lemma NoPointInDigits(s: string)
    requires AllDigits(s)
    ensures '.' !in s
  {
  }

  lemma FractionOfZero()
    ensures FractionValue("0") == 0.0
  {
    assert "0"[..0] == [];
  }

  lemma DecimalEndsInDigit(d: string)
    requires IsDecimal(d)
    ensures IsDigit(d[|d| - 1])
  {
    var k := LeadingDigits(d);
    if k < |d| {
      var f := d[k + 1..];
      assert f[|f| - 1] == d[|d| - 1];
    }
  }

  lemma DecimalUnsigned(d: string)
    requires IsDecimal(d)
    ensures ParseUnsigned(d).Some? && ParseUnsigned(d).value >= 0.0
  {
    var k := LeadingDigits(d);
    assert '.' !in d[..k];
    if k == |d| {
      assert d[..k] == d;
    } else {
      assert IndexOf(d, '.') == Some(k);
      assert FractionValue(d[k + 1..]) >= 0.0;
    }
  }

  /** Every string the capture group matches is a number `float()` reads,
      and never a negative one. */
  lemma DecimalParses(d: string)
    requires IsDecimal(d)
    ensures ParseFloat(d).Some?
    ensures ParseFloat(d).value >= 0.0
  {
    DecimalEndsInDigit(d);
    PlainNumeral(d);
    DecimalUnsigned(d);
  }

  predicate NoDigit(s: string) {
    forall i :: 0 <= i < |s| ==> !IsDigit(s[i])
  }

  lemma NoDigitSlice(s: string, i: nat, j: nat)
    requires NoDigit(s) && i <= j <= |s|
    ensures NoDigit(s[i..j])
  {
    assert forall k :: 0 <= k < j - i ==> s[i..j][k] == s[i + k];
  }

  lemma StripNoDigit(s: string)
    requires NoDigit(s)
    ensures NoDigit(Strip(s))
  {
    var l := DropLeadingSpaces(s);
    NoDigitSlice(s, |s| - |l|, |s|);
    var t := DropTrailingSpaces(l);
    NoDigitSlice(l, 0, |t|);
  }

  lemma UnsignedNoDigit(u: string)
    requires NoDigit(u)
    ensures ParseUnsigned(u).None?
  {
    match IndexOf(u, '.')
    case None =>
      if |u| > 0 {
        assert !IsDigit(u[0]);
      }
    case Some(i) =>
      var whole, frac := u[..i], u[i + 1..];
      if |whole| > 0 {
        assert !IsDigit(whole[0]);
      } else if |frac| > 0 {
        assert !IsDigit(frac[0]);
      }
  }

  /** Neither `Strip(s)` nor its tail after a sign is read when `s` has
      no digit. */
  lemma NoDigitParts(s: string)
    ensures NoDigit(s) ==>
      ParseUnsigned(Strip(s)).None? && (|Strip(s)| > 0 ==> ParseUnsigned(Strip(s)[1..]).None?)
  {
    if NoDigit(s) {
      var t := Strip(s);
      StripNoDigit(s);
      UnsignedNoDigit(t);
      if |t| > 0 {
        UnsignedNoDigit(t[1..]);
      }
    }
  }
}

=== FILE: ef_checker.dfy ===
/** `EFChecker`: reads the ejection fraction from the conclusion, the body
    and the calculations of a report. The conclusion may come from a text
    cut directly out of the source document, supplied here as an input. */
module EFChecker {
  import opened Options
  import opened Strings
  import opened Decimal
  import opened Patterns
  import opened Extraction
  import opened Consistency

  /** `self.ef_patterns`, in priority order. */
  const EFPatterns: seq<Pattern> := [EjectionFraction, EfLabel, PercentEf, PercentEjection, LvefLabel]

  const ConclusionKeywords: seq<string> :=
    ["conclusion", "summary", "impression", "final", "overall", "assessment", "diagnosis", "findings"]

  const CalcKeywords: seq<string> :=
    ["calculation", "measurement", "values", "parameters", "quantitative", "measurements", "data"]

  /** `"measurements"` comes after its prefix `"measurement"`, so it never
      decides the anchor. */
  lemma ShadowedCalcKeyword(t: string)
    ensures FirstPresent(CalcKeywords, t) != Some(5)
  {
    assert CalcKeywords[1] <= CalcKeywords[5];
    ShadowedNeverDecides(CalcKeywords, 1, 5, t);
  }

  /** `_extract_first_ef`: the first match of the first pattern whose first
      match is plausible, with `%` appended. */
  function ExtractFirstEF(lower: string): (r: Option<string>)
    ensures r.Some? ==> IsReading(r.value)
    ensures r.None? <==> forall k :: 0 <= k < |EFPatterns| ==> !Accepts(FindFirst(EFPatterns[k], lower))
    ensures r.Some? ==>
      exists k :: 0 <= k < |EFPatterns| && Accepts(FindFirst(EFPatterns[k], lower))
        && r.value == FindFirst(EFPatterns[k], lower).value + "%"
        && forall j :: 0 <= j < k ==> !Accepts(FindFirst(EFPatterns[j], lower))
  {
    FirstValid(EFPatterns, lower)
  }

  /** `_extract_from_section`: the pattern list run over the window around
      the section anchor; nothing when no keyword occurs. */
  function ExtractFromSection(lower: string, keywords: seq<string>): (r: Option<string>)
    ensures r.Some? ==> IsReading(r.value)
    ensures (forall k, q: nat :: 0 <= k < |keywords| ==> !OccursAt(lower, keywords[k], q)) ==> r.None?
    ensures r.Some? ==> Section(lower, keywords).Some?
    ensures Section(lower, keywords).Some? ==> r == ExtractFirstEF(Section(lower, keywords).value)
  {
    match Section(lower, keywords)
    case None => None
    case Some(w) => ExtractFirstEF(w)
  }

  /** A text without the letter `j` has no `ejection fraction` match. */
  lemma {:induction false} NoEjectionFraction(t: string)
    requires forall i :: 0 <= i < |t| ==> t[i] != 'j'
    ensures FindFirst(EjectionFraction, t).None?
  {
    var rest := [Word("fraction"), Many(ColonOrSpace, 0), Number] + OptionalPercent;
    assert EjectionFraction == [Word("ejection"), Many(Space, 1)] + rest;
    forall q | 0 <= q <= |t|
      ensures MatchAt(EjectionFraction, t, q).None?
    {
      assert !OccursAt(t, "ejection", q) by {
        if q + 8 <= |t| {
          assert t[q..q + 8][1] == t[q + 1] != "ejection"[1];
        }
      }
      WordThenSpaces("ejection", rest, t, q);
    }
  }

  /** In `ef ` followed by a digit string, with or without a `%` after it,
      the `ef` label captures the digits. */
  lemma {:induction false} EfThenDigits(d: string, t: string)
    requires |d| > 0 && AllDigits(d)
    requires t == "ef " + d || t == "ef " + d + "%"
    ensures FindFirst(EfLabel, t) == Some(d)
  {
    assert forall i :: 3 <= i < 3 + |d| ==> t[i] == d[i - 3];
    assert OccursAt(t, "ef", 0);
    assert SkipClass(t, 2, ColonOrSpace) == 3;
    NumberEndOfDigits(t, 3, |d|);
    EfLabelMatch(t, 0);
    assert t[3..3 + |d|] == d;
  }

  /** `ef 55` and `ef 55%` read the same: a plausible number after the
      `ef` label is reported with `%` whether or not the text has one. */
  lemma {:induction false} PercentSignOptional(d: string)
    requires |d| > 0 && AllDigits(d) && IsValidEF(d)
    ensures ExtractFirstEF("ef " + d) == Some(d + "%")
    ensures ExtractFirstEF("ef " + d + "%") == Some(d + "%")
  {
    EfLabelFirst(EFPatterns, d, "ef " + d);
    EfLabelFirst(EFPatterns, d, "ef " + d + "%");
  }

  /** A pattern list that starts with `ejection fraction` and the `ef`
      label reads `ef N` and `ef N%` as `N%`. */
  lemma {:induction false} EfLabelFirst(pats: seq<Pattern>, d: string, t: string)
    requires |pats| >= 2 && pats[0] == EjectionFraction && pats[1] == EfLabel
    requires |d| > 0 && AllDigits(d) && IsValidEF(d)
    requires t == "ef " + d || t == "ef " + d + "%"
    ensures FirstValid(pats, t) == Some(d + "%")
  {
    forall i | 0 <= i < |t|
      ensures t[i] != 'j'
    {
      if 3 <= i < 3 + |d| {
        assert t[i] == d[i - 3];
      }
    }
    NoEjectionFraction(t);
    EfThenDigits(d, t);
    SecondPatternWins(pats, t);
  }

  /** `extract_ef_values(text, rtf_path)`. `direct` is `None` when no path
      is given and otherwise the text the direct conclusion extraction
      produced (possibly empty); that text replaces the keyword window
      only when it is not empty. The result always has exactly the three
      keys, and every value present is a plausible `N%` reading. */
  function ExtractEFValues(text: string, direct: Option<string>): (r: Reading)
    ensures r.Keys == {Conclusion, Text, Calcs}
    ensures forall k :: k in r && r[k].Some? ==> IsReading(r[k].value)
    ensures direct.Some? && direct.value != "" ==> r[Conclusion] == ExtractFirstEF(Lower(direct.value))
    ensures direct.None? || direct.value == "" ==> r[Conclusion] == ExtractFromSection(Lower(text), ConclusionKeywords)
    ensures r[Text] == ExtractFirstEF(Lower(text))
    ensures r[Calcs] == ExtractFromSection(Lower(text), CalcKeywords)
  {
    var lower := Lower(text);
    var conclusion :=
      if direct.Some? && direct.value != "" then ExtractFirstEF(Lower(direct.value))
      else ExtractFromSection(lower, ConclusionKeywords);
    var body := ExtractFirstEF(lower);
    var calcs := ExtractFromSection(lower, CalcKeywords);
    ReadingsPlausible(conclusion, body, calcs);
    Readings(conclusion, body, calcs)
  }

  lemma ReadingsPlausible(conclusion: Option<string>, body: Option<string>, calcs: Option<string>)
    requires conclusion.Some? ==> IsReading(conclusion.value)
    requires body.Some? ==> IsReading(body.value)
    requires calcs.Some? ==> IsReading(calcs.value)
    ensures var r := Readings(conclusion, body, calcs); forall k :: k in r && r[k].Some? ==> IsReading(r[k].value)
  {
    var r := Readings(conclusion, body, calcs);
    assert forall k :: k in r ==> k == Conclusion || k == Text || k == Calcs;
  }

  /** The readings do not depend on letter case in the report. */
  lemma CaseInsensitive(text: string, direct: Option<string>)
    ensures ExtractEFValues(Lower(text), direct) == ExtractEFValues(text, direct)
  {
    LowerIdempotent(text);
  }

  /** With a non-empty direct conclusion, the conclusion reading ignores
      the report text entirely. */
  lemma DirectConclusionIgnoresReport(t1: string, t2: string, c: string)
    requires c != ""
    ensures ExtractEFValues(t1, Some(c))[Conclusion] == ExtractEFValues(t2, Some(c))[Conclusion]
  {
  }

  /** An empty direct conclusion falls back to the keyword window, just as
      when no path is given. */
  lemma EmptyDirectConclusionFallsBack(text: string)
    ensures ExtractEFValues(text, Some("")) == ExtractEFValues(text, None)
  {
    var a, b := ExtractEFValues(text, Some("")), ExtractEFValues(text, None);
    assert a[Conclusion] == b[Conclusion];
    assert forall k :: k in a ==> a[k] == b[k];
  }
}

=== FILE: ef_fallback_checker.dfy ===
/** `EFFallbackChecker`: the copy of the checker that works on text taken
    from the document without a word processor. It differs from
    `EFChecker` in three ways: a nine-entry pattern list, a longer list of
    calculations keywords, and the table rule tried first in the
    calculations window. It has no direct conclusion input. */
module EFFallbackChecker {
  import opened Options
  import opened Strings
  import opened Decimal
  import opened Patterns
  import opened Extraction
  import opened Consistency
  import EFChecker

  /** `self.ef_patterns`, in priority order. */
  const FallbackPatterns: seq<Pattern> := [
    EjectionFraction, EfLabel, PercentEf, PercentEjection, LvefLabel,
    EfPercent, EfSeparatorPercent, EfEqualsPercent, EfSpacePercent
  ]

  const ConclusionKeywords: seq<string> :=
    ["conclusion", "summary", "impression", "final", "overall", "assessment", "diagnosis", "findings"]

  const CalcKeywords: seq<string> := [
    "calculation", "measurement", "values", "parameters", "quantitative", "measurements", "data",
    "measurements table", "measurement table", "calculations table", "table"
  ]

  /** Four calculations keywords come after one of their own prefixes
      (`"measurements"`, `"measurements table"` and `"measurement table"`
      after `"measurement"`, `"calculations table"` after
      `"calculation"`), so none of them ever decides the anchor. */
  lemma ShadowedCalcKeywords(t: string)
    ensures FirstPresent(CalcKeywords, t) !in {Some(5), Some(7), Some(8), Some(9)}
  {
    assert CalcKeywords[1] <= CalcKeywords[5];
    ShadowedNeverDecides(CalcKeywords, 1, 5, t);
    assert CalcKeywords[1] <= CalcKeywords[7];
    ShadowedNeverDecides(CalcKeywords, 1, 7, t);
    assert CalcKeywords[1] <= CalcKeywords[8];
    ShadowedNeverDecides(CalcKeywords, 1, 8, t);
    assert CalcKeywords[0] <= CalcKeywords[9];
    ShadowedNeverDecides(CalcKeywords, 0, 9, t);
  }

  /** `_extract_first_ef` with the nine patterns: the first match of the
      first pattern whose first match is plausible, with `%` appended. */
  function ExtractFirstEF(lower: string): (r: Option<string>)
    ensures r.Some? ==> IsReading(r.value)
    ensures r.None? <==> forall k :: 0 <= k < |FallbackPatterns| ==> !Accepts(FindFirst(FallbackPatterns[k], lower))
    ensures r.Some? ==>
      exists k :: 0 <= k < |FallbackPatterns| && Accepts(FindFirst(FallbackPatterns[k], lower))
        && r.value == FindFirst(FallbackPatterns[k], lower).value + "%"
        && forall j :: 0 <= j < k ==> !Accepts(FindFirst(FallbackPatterns[j], lower))
  {
    FirstValid(FallbackPatterns, lower)
  }

  /** `_extract_from_section`: for the calculations region a value of the
      table rule is returned before the pattern list is tried; the other
      regions use the pattern list alone. */
  function ExtractFromSection(lower: string, keywords: seq<string>, region: Region): (r: Option<string>)
    ensures r.Some? ==> IsReading(r.value)
    ensures (forall k, q: nat :: 0 <= k < |keywords| ==> !OccursAt(lower, keywords[k], q)) ==> r.None?
    ensures region != Calcs ==>
      r == (if Section(lower, keywords).Some? then ExtractFirstEF(Section(lower, keywords).value) else None)
    ensures region == Calcs && Section(lower, keywords).Some? && TableRule(Section(lower, keywords).value).Some? ==>
      r == TableRule(Section(lower, keywords).value)
    ensures region == Calcs && Section(lower, keywords).Some? && TableRule(Section(lower, keywords).value).None? ==>
      r == ExtractFirstEF(Section(lower, keywords).value)
  {
    match Section(lower, keywords)
    case None => None
    case Some(w) =>
      if region == Calcs then
        var table := TableRule(w);
        if table.Some? then table else ExtractFirstEF(w)
      else ExtractFirstEF(w)
  }

  /** `extract_ef_values(text)`: exactly the three keys, each value absent
      or a plausible `N%` reading. */
  function ExtractEFValues(text: string): (r: Reading)
    ensures r.Keys == {Conclusion, Text, Calcs}
    ensures forall k :: k in r && r[k].Some? ==> IsReading(r[k].value)
    ensures r[Conclusion] == ExtractFromSection(Lower(text), ConclusionKeywords, Conclusion)
    ensures r[Text] == ExtractFirstEF(Lower(text))
    ensures r[Calcs] == ExtractFromSection(Lower(text), CalcKeywords, Calcs)
  {
    var lower := Lower(text);
    var conclusion := ExtractFromSection(lower, ConclusionKeywords, Conclusion);
    var body := ExtractFirstEF(lower);
    var calcs := ExtractFromSection(lower, CalcKeywords, Calcs);
    EFChecker.ReadingsPlausible(conclusion, body, calcs);
    Readings(conclusion, body, calcs)
  }

  /** The first five patterns are those of `EFChecker`, in the same order. */
  lemma PatternsExtendPrimary()
    ensures FallbackPatterns == EFChecker.EFPatterns + FallbackPatterns[5..]
  {
  }

  /** Wherever `EFChecker` finds a value with its pattern list, this copy
      finds the same one; the four extra patterns only fill gaps. */
  lemma FirstEFAgreesWithPrimary(lower: string)
    requires EFChecker.ExtractFirstEF(lower).Some?
    ensures ExtractFirstEF(lower) == EFChecker.ExtractFirstEF(lower)
  {
    PatternsExtendPrimary();
    FirstValidAppend(EFChecker.EFPatterns, FallbackPatterns[5..], lower);
  }

  /** `ef 55` and `ef 55%` read the same in this copy too. */
  lemma PercentSignOptional(d: string)
    requires |d| > 0 && AllDigits(d) && IsValidEF(d)
    ensures ExtractFirstEF("ef " + d) == Some(d + "%")
    ensures ExtractFirstEF("ef " + d + "%") == Some(d + "%")
  {
    EFChecker.EfLabelFirst(FallbackPatterns, d, "ef " + d);
    EFChecker.EfLabelFirst(FallbackPatterns, d, "ef " + d + "%");
  }

  /** The conclusion region never uses the table rule: without a direct
      conclusion, whenever `EFChecker` reads a conclusion value this copy
      reads the same one, and the body readings agree likewise. */
  lemma ReadingsAgreeWithPrimary(text: string)
    ensures EFChecker.ExtractEFValues(text, None)[Conclusion].Some? ==>
      ExtractEFValues(text)[Conclusion] == EFChecker.ExtractEFValues(text, None)[Conclusion]
    ensures EFChecker.ExtractEFValues(text, None)[Text].Some? ==>
      ExtractEFValues(text)[Text] == EFChecker.ExtractEFValues(text, None)[Text]
  {
    var lower := Lower(text);
    assert ConclusionKeywords == EFChecker.ConclusionKeywords;
    var primary := EFChecker.ExtractEFValues(text, None);
    if primary[Conclusion].Some? {
      assert primary[Conclusion] == EFChecker.ExtractFromSection(lower, ConclusionKeywords);
      var w := Section(lower, ConclusionKeywords).value;
      assert primary[Conclusion] == EFChecker.ExtractFirstEF(w);
      FirstEFAgreesWithPrimary(w);
    }
    if primary[Text].Some? {
      FirstEFAgreesWithPrimary(lower);
    }
  }
}

=== FILE: extraction.dfy ===
/** The building blocks both checkers share: the plausibility filter, the
    first-match-wins loop over a pattern list, the keyword anchor and the
    window around it, and the table rule of the fallback checker. */
module Extraction {
  import opened Options
  import opened Strings
  import opened Decimal
  import opened Patterns

  /** Half the width of the window cut around a section keyword. */
  const Radius: nat := 500

  /** `_is_valid_ef`: the value reads as a number within [10, 90]; a value
      that does not read as a number, such as one without a digit, is not
      valid, and a string of digits is valid exactly when its value lies
      from 10 to 90. */
  predicate IsValidEF(value: string)
    ensures IsValidEF(value) ==> !NoDigit(value)
    ensures |value| > 0 && AllDigits(value) ==> (IsValidEF(value) <==> 10 <= DigitsValue(value) <= 90)
  {
    match ParseFloat(value)
    case Some(x) => 10.0 <= x <= 90.0
    case None => false
  }

  /** Whole-number readings are valid exactly from 10 to 90. */
  lemma ValidWholeNumbers(n: nat)
    ensures IsValidEF(NatToString(n)) <==> 10 <= n <= 90
  {
    NatRoundTrip(n);
  }

  /** A numeral with a fraction is valid exactly when all its digits,
      read as one whole number, lie from 10 to 90 times the power of ten
      its fraction length gives: `90.5` is not valid, `89.9` is. */
  lemma ValidFractionalNumbers(w: string, f: string)
    requires |w| > 0 && AllDigits(w) && AllDigits(f)
    ensures IsValidEF(w + "." + f) <==> 10 * Pow10(|f|) <= DigitsValue(w + f) <= 90 * Pow10(|f|)
  {
    FractionalNumeral(w, f);
    QuotientBounds(DigitsValue(w + f), Pow10(|f|));
  }

  lemma QuotientBounds(n: nat, p: nat)
    requires p >= 1
    ensures 10.0 <= n as real / p as real <= 90.0 <==> 10 * p <= n <= 90 * p
  {
    ProductAsReal(10, p);
    ProductAsReal(90, p);
    QuotientAtLeast(n as real, p as real, 10.0);
    QuotientAtMost(n as real, p as real, 90.0);
  }

  lemma QuotientAtLeast(n: real, p: real, c: real)
    requires p > 0.0
    ensures c <= n / p <==> c * p <= n
  {
    var q := n / p;
    assert q * p == n;
    assert (q - c) * p == n - c * p;
  }

  lemma QuotientAtMost(n: real, p: real, c: real)
    requires p > 0.0
    ensures n / p <= c <==> n <= c * p
  {
    var q := n / p;
    assert q * p == n;
    assert (c - q) * p == c * p - n;
  }

  /** `90.5` just passes the upper bound and is rejected. */
  lemma JustAboveNinety()
    ensures !IsValidEF("90.5")
  {
    ValidFractionalNumbers("90", "5");
    assert "90" + "." + "5" == "90.5";
    assert "90" + "5" == "905";
    NinetyFiveValue();
  }

  lemma NinetyFiveValue()
    ensures DigitsValue("905") == 905
  {
    assert "9"[..0] == "";
    assert "90"[..1] == "9";
    assert "905"[..2] == "90";
  }

  /** A value as the extractors report it: the captured numeral followed
      by `%`, the numeral within [10, 90]. */
  predicate IsReading(v: string) {
    && |v| > 0
    && v[|v| - 1] == '%'
    && IsDecimal(v[..|v| - 1])
    && IsValidEF(v[..|v| - 1])
  }

  /** A first match that passes the plausibility filter. */
  predicate Accepts(m: Option<string>) {
    m.Some? && IsValidEF(m.value)
  }

  lemma ReadingOf(d: string)
    requires IsDecimal(d) && IsValidEF(d)
    ensures IsReading(d + "%")
  {
    assert (d + "%")[..|d|] == d;
  }

  /** The first index, from `from` on, whose flag is set. */
  function FirstTrue(b: seq<bool>, from: nat): (r: Option<nat>)
    requires from <= |b|
    ensures r.Some? ==> from <= r.value < |b| && b[r.value]
    ensures r.Some? ==> forall j :: from <= j < r.value ==> !b[j]
    ensures r.None? ==> forall j :: from <= j < |b| ==> !b[j]
    decreases |b| - from
  {
    if from == |b| then None
    else if b[from] then Some(from)
    else FirstTrue(b, from + 1)
  }

  /** The first set flag is the one `FirstTrue` names. */
  lemma FirstTrueIs(b: seq<bool>, i: nat)
    requires i < |b| && b[i]
    requires forall j :: 0 <= j < i ==> !b[j]
    ensures FirstTrue(b, 0) == Some(i)
  {
  }

  /** For each pattern, whether its first match is plausible. */
  function AcceptFlags(pats: seq<Pattern>, s: string): (b: seq<bool>)
    ensures |b| == |pats|
    ensures forall k :: 0 <= k < |pats| ==> b[k] == Accepts(FindFirst(pats[k], s))
  {
    seq(|pats|, k requires 0 <= k < |pats| => Accepts(FindFirst(pats[k], s)))
  }

  /** The index of the first pattern whose first match is plausible. */
  function FirstAccepting(pats: seq<Pattern>, s: string): (r: Option<nat>)
    ensures r.Some? ==> r.value < |pats| && Accepts(FindFirst(pats[r.value], s))
    ensures r.Some? ==> forall j :: 0 <= j < r.value ==> !Accepts(FindFirst(pats[j], s))
    ensures r.None? ==> forall k :: 0 <= k < |pats| ==> !Accepts(FindFirst(pats[k], s))
  {
    FirstTrue(AcceptFlags(pats, s), 0)
  }

  /** The first plausible pattern is the one `FirstAccepting` names. */
  lemma FirstAcceptingIs(pats: seq<Pattern>, s: string, k: nat)
    requires k < |pats| && Accepts(FindFirst(pats[k], s))
    requires forall j :: 0 <= j < k ==> !Accepts(FindFirst(pats[j], s))
    ensures FirstAccepting(pats, s) == Some(k)
  {
  }

  /** The loop `for pattern in patterns` of the extractors: the value comes
      from the first pattern whose FIRST match is plausible, with `%`
      appended; a pattern whose first match is implausible is passed
      over without looking at its later matches. */
  function FirstValid(pats: seq<Pattern>, s: string): (r: Option<string>)
    ensures r.Some? ==> IsReading(r.value)
    ensures r.None? <==> forall k :: 0 <= k < |pats| ==> !Accepts(FindFirst(pats[k], s))
    ensures r.Some? ==>
      exists k :: 0 <= k < |pats| && Accepts(FindFirst(pats[k], s))
        && r.value == FindFirst(pats[k], s).value + "%"
        && forall j :: 0 <= j < k ==> !Accepts(FindFirst(pats[j], s))
  {
    match FirstAccepting(pats, s)
    case None => None
    case Some(k) =>
      var m := FindFirst(pats[k], s).value;
      ReadingOf(m);
      Some(m + "%")
  }

  /** The value comes from the first plausible pattern. */
  lemma FirstValidIs(pats: seq<Pattern>, s: string, k: nat)
    requires k < |pats| && Accepts(FindFirst(pats[k], s))
    requires forall j :: 0 <= j < k ==> !Accepts(FindFirst(pats[j], s))
    ensures FirstValid(pats, s) == Some(FindFirst(pats[k], s).value + "%")
  {
  }

  /** When the first pattern finds nothing plausible and the second does,
      the second decides. */
  lemma {:induction false} SecondPatternWins(pats: seq<Pattern>, s: string)
    requires |pats| >= 2 && !Accepts(FindFirst(pats[0], s)) && Accepts(FindFirst(pats[1], s))
    ensures FirstValid(pats, s) == Some(FindFirst(pats[1], s).value + "%")
  {
    FirstValidStep(pats, s);
    assert pats[1..][0] == pats[1];
    FirstValidStep(pats[1..], s);
  }

  /** The first set flag, one flag at a time. */
  lemma FirstTrueStep(b: seq<bool>)
    requires |b| > 0
    ensures FirstTrue(b, 0) ==
      if b[0] then Some(0)
      else match FirstTrue(b[1..], 0)
        case None => None
        case Some(i) => Some(i + 1)
  {
    if !b[0] {
      match FirstTrue(b[1..], 0)
      case Some(i) =>
        FirstTrueIs(b, i + 1);
      case None =>
        assert forall j :: 1 <= j < |b| ==> b[j] == b[1..][j - 1];
    }
  }

  lemma AcceptFlagsTail(pats: seq<Pattern>, s: string)
    requires |pats| > 0
    ensures AcceptFlags(pats, s)[0] == Accepts(FindFirst(pats[0], s))
    ensures AcceptFlags(pats, s)[1..] == AcceptFlags(pats[1..], s)
  {
  }

  /** The index search, one pattern at a time. */
  lemma FirstAcceptingStep(pats: seq<Pattern>, s: string)
    requires |pats| > 0
    ensures FirstAccepting(pats, s) ==
      if Accepts(FindFirst(pats[0], s)) then Some(0)
      else match FirstAccepting(pats[1..], s)
        case None => None
        case Some(i) => Some(i + 1)
  {
    AcceptFlagsTail(pats, s);
    FirstTrueStep(AcceptFlags(pats, s));
  }

  /** One turn of the loop: a plausible first match of the head pattern
      decides, otherwise the rest of the list does. */
  lemma FirstValidStep(pats: seq<Pattern>, s: string)
    requires |pats| > 0
    ensures FirstValid(pats, s) ==
      if Accepts(FindFirst(pats[0], s)) then Some(FindFirst(pats[0], s).value + "%")
      else FirstValid(pats[1..], s)
  {
    FirstAcceptingStep(pats, s);
    if !Accepts(FindFirst(pats[0], s)) && FirstAccepting(pats[1..], s).Some? {
      var i := FirstAccepting(pats[1..], s).value;
      assert pats[1..][i] == pats[i + 1];
    }
  }

  /** Trying a list `a + b` is trying `a`, then `b` if `a` found nothing. */
  lemma {:induction false} FirstValidAppend(a: seq<Pattern>, b: seq<Pattern>, s: string)
    ensures FirstValid(a + b, s) == if FirstValid(a, s).Some? then FirstValid(a, s) else FirstValid(b, s)
    decreases |a|
  {
    if |a| > 0 {
      assert (a + b)[0] == a[0];
      assert (a + b)[1..] == a[1..] + b;
      FirstValidStep(a + b, s);
      FirstValidStep(a, s);
      FirstValidAppend(a[1..], b, s);
    } else {
      assert a + b == b;
    }
  }

  /** Only the first match of each pattern matters: two texts on which
      every pattern has the same first match give the same value. */
  lemma {:induction false} OnlyFirstMatchesMatter(pats: seq<Pattern>, s: string, t: string)
    requires forall k :: 0 <= k < |pats| ==> FindFirst(pats[k], s) == FindFirst(pats[k], t)
    ensures FirstValid(pats, s) == FirstValid(pats, t)
    decreases |pats|
  {
    if |pats| > 0 {
      var m := FindFirst(pats[0], s);
      assert m == FindFirst(pats[0], t);
      FirstValidStep(pats, s);
      FirstValidStep(pats, t);
      if !Accepts(m) {
        forall k | 0 <= k < |pats[1..]|
          ensures FindFirst(pats[1..][k], s) == FindFirst(pats[1..][k], t)
        {
          assert pats[1..][k] == pats[k + 1];
        }
        OnlyFirstMatchesMatter(pats[1..], s, t);
      }
    } else {
      assert FirstValid(pats, s).None? && FirstValid(pats, t).None?;
    }
  }

  /** For each keyword, whether it occurs in the text. */
  function PresentFlags(keywords: seq<string>, t: string): (b: seq<bool>)
    ensures |b| == |keywords|
    ensures forall k :: 0 <= k < |keywords| ==> b[k] == Find(t, keywords[k]).Some?
  {
    seq(|keywords|, k requires 0 <= k < |keywords| => Find(t, keywords[k]).Some?)
  }

  /** The index of the keyword that decides the anchor: the first keyword
      of the list that occurs anywhere in the text. */
  function FirstPresent(keywords: seq<string>, t: string): (r: Option<nat>)
    ensures r.Some? ==> r.value < |keywords| && Find(t, keywords[r.value]).Some?
    ensures r.Some? ==> forall j :: 0 <= j < r.value ==> Find(t, keywords[j]).None?
    ensures r.None? ==> forall k :: 0 <= k < |keywords| ==> Find(t, keywords[k]).None?
  {
    FirstTrue(PresentFlags(keywords, t), 0)
  }

  /** The section anchor: `text_lower.find(keyword)` for the first keyword
      of the list that occurs anywhere, which need not be the keyword that
      occurs earliest in the text. */
  function FindKeyword(keywords: seq<string>, t: string): (r: Option<nat>)
    ensures r.Some? ==>
      exists k :: 0 <= k < |keywords| && Find(t, keywords[k]) == r
        && forall j :: 0 <= j < k ==> Find(t, keywords[j]).None?
    ensures r.None? <==> forall k, q: nat :: 0 <= k < |keywords| ==> !OccursAt(t, keywords[k], q)
  {
    match FirstPresent(keywords, t)
    case None => None
    case Some(k) => Find(t, keywords[k])
  }

  /** A keyword that occurs anywhere always yields an anchor, and the
      anchor belongs to that keyword or to one listed before it. */
  lemma AnchorPriority(keywords: seq<string>, t: string, k: nat)
    requires k < |keywords| && Find(t, keywords[k]).Some?
    ensures FindKeyword(keywords, t).Some?
    ensures exists j :: 0 <= j <= k && FindKeyword(keywords, t) == Find(t, keywords[j])
  {
    var r := FindKeyword(keywords, t);
    assert OccursAt(t, keywords[k], Find(t, keywords[k]).value);
    var j :| 0 <= j < |keywords| && Find(t, keywords[j]) == r
      && forall i :: 0 <= i < j ==> Find(t, keywords[i]).None?;
    assert j <= k;
  }

  predicate Covers(w: Span, q: int) {
    w.lo <= q < w.hi
  }

  predicate Near(pos: nat, q: int) {
    pos - Radius <= q < pos + Radius
  }

  /** `text_lower[max(0, pos - 500) : min(len(text), pos + 500)]` as index
      bounds: exactly the positions of the text within 500 characters
      before the anchor or fewer than 500 after it, so the window holds the
      anchor and at most 1000 characters. */
  function WindowBounds(n: nat, pos: nat): (w: Span)
    requires pos <= n
    ensures w.lo <= pos <= w.hi <= n
    ensures w.hi - w.lo <= 2 * Radius
    ensures forall q :: Covers(w, q) <==> 0 <= q < n && Near(pos, q)
  {
    Span(if pos < Radius then 0 else pos - Radius, if pos + Radius < n then pos + Radius else n)
  }

  /** The lowered text around the section anchor, or none when no keyword
      of the list occurs. */
  function Section(lower: string, keywords: seq<string>): (r: Option<string>)
    ensures r.None? <==> forall k, q: nat :: 0 <= k < |keywords| ==> !OccursAt(lower, keywords[k], q)
    ensures r.Some? ==> |r.value| <= 2 * Radius
    ensures r.Some? ==>
      exists k :: 0 <= k < |keywords| && Find(lower, keywords[k]).Some?
        && (forall j :: 0 <= j < k ==> Find(lower, keywords[j]).None?)
        && var w := WindowBounds(|lower|, Find(lower, keywords[k]).value);
           r.value == lower[w.lo..w.hi]
  {
    match FindKeyword(keywords, lower)
    case None => None
    case Some(pos) =>
      assert pos <= |lower| by {
        var k :| 0 <= k < |keywords| && Find(lower, keywords[k]) == Some(pos);
      }
      var w := WindowBounds(|lower|, pos);
      Some(lower[w.lo..w.hi])
  }

  /** When keyword `k` occurs and no keyword before it does, the section
      is the window around the first occurrence of `k`. */
  lemma SectionOfFirstPresent(keywords: seq<string>, lower: string, k: nat)
    requires k < |keywords| && Find(lower, keywords[k]).Some?
    requires forall j :: 0 <= j < k ==> Find(lower, keywords[j]).None?
    ensures
      var w := WindowBounds(|lower|, Find(lower, keywords[k]).value);
      Section(lower, keywords) == Some(lower[w.lo..w.hi])
  {
    AnchorOfFirstPresent(keywords, lower, k);
  }

  /** When keyword `k` occurs and no keyword before it does, the anchor
      is where `k` first occurs. */
  lemma AnchorOfFirstPresent(keywords: seq<string>, t: string, k: nat)
    requires k < |keywords| && Find(t, keywords[k]).Some?
    requires forall j :: 0 <= j < k ==> Find(t, keywords[j]).None?
    ensures FindKeyword(keywords, t) == Find(t, keywords[k])
  {
    match FirstPresent(keywords, t)
    case Some(j) =>
      assert j == k;
    case None =>
  }

  /** The window around an occurrence of a keyword no longer than the
      radius holds the whole keyword. */
  lemma WindowHoldsOccurrence(t: string, kw: string, pos: nat)
    requires OccursAt(t, kw, pos) && |kw| <= Radius
    ensures
      var w := WindowBounds(|t|, pos);
      OccursAt(t[w.lo..w.hi], kw, pos - w.lo)
  {
    var w := WindowBounds(|t|, pos);
    var sec := t[w.lo..w.hi];
    assert pos + |kw| <= w.hi;
    assert sec[pos - w.lo..pos - w.lo + |kw|] == t[pos..pos + |kw|];
  }

  /** The section holds the whole winning keyword, at its offset from the
      start of the window, provided the keyword is no longer than the
      radius. */
  lemma SectionHoldsKeyword(lower: string, keywords: seq<string>, k: nat)
    requires k < |keywords| && |keywords[k]| <= Radius
    requires Find(lower, keywords[k]).Some?
    requires forall j :: 0 <= j < k ==> Find(lower, keywords[j]).None?
    ensures Section(lower, keywords).Some?
    ensures
      var pos := Find(lower, keywords[k]).value;
      OccursAt(Section(lower, keywords).value, keywords[k], pos - WindowBounds(|lower|, pos).lo)
  {
    AnchorOfFirstPresent(keywords, lower, k);
    WindowHoldsOccurrence(lower, keywords[k], Find(lower, keywords[k]).value);
  }

  /** A keyword occurs wherever a longer keyword it is a prefix of
      occurs. */
  lemma PrefixPresent(t: string, u: string, w: string)
    requires u <= w && Find(t, w).Some?
    ensures Find(t, u).Some?
  {
    var q := Find(t, w).value;
    assert t[q..q + |u|] == t[q..q + |w|][..|u|];
    assert OccursAt(t, u, q);
  }

  /** A keyword listed after one of its own prefixes never decides the
      anchor: whenever it occurs, the prefix, listed earlier, occurs too. */
  lemma ShadowedNeverDecides(keywords: seq<string>, i: nat, j: nat, t: string)
    requires i < j < |keywords| && keywords[i] <= keywords[j]
    ensures FirstPresent(keywords, t) != Some(j)
  {
    if Find(t, keywords[j]).Some? {
      PrefixPresent(t, keywords[i], keywords[j]);
    }
  }

  // ---------------------------------------------------------------------
  // The table rule of the fallback checker

  /** `\bef\b` matches at `j`: the letters `ef` with no word character on
      either side. */
  predicate WordEfAt(line: string, j: nat) {
    && j + 2 <= |line|
    && line[j] == 'e' && line[j + 1] == 'f'
    && (j == 0 || !IsWordChar(line[j - 1]))
    && (j + 2 == |line| || !IsWordChar(line[j + 2]))
  }

  /** `re.search(r'\bef\b', line)` finds something; it never does on a
      line without the letters `ef`. */
  predicate HasWordEf(line: string)
    ensures HasWordEf(line) ==> Find(line, "ef").Some?
  {
    assert (exists j: nat :: j < |line| && WordEfAt(line, j)) ==> Find(line, "ef").Some? by {
      if exists j: nat :: j < |line| && WordEfAt(line, j) {
        var j: nat :| j < |line| && WordEfAt(line, j);
        assert OccursAt(line, "ef", j);
      }
    }
    exists j: nat :: j < |line| && WordEfAt(line, j)
  }

  /** `ef` standing between non-word characters, or at either end of the
      line, is the word `ef`. */
  lemma StandaloneEf(a: string, b: string)
    requires |a| == 0 || !IsWordChar(a[|a| - 1])
    requires |b| == 0 || !IsWordChar(b[0])
    ensures HasWordEf(a + "ef" + b)
  {
    var line := a + "ef" + b;
    assert WordEfAt(line, |a|);
  }

  /** `re.search(r'(\d+(?:\.\d+)?)\s*%?', line).group(1)`: the first
      numeral of the line. */
  function FirstNumber(line: string): (r: Option<string>)
    ensures r.Some? ==> IsDecimal(r.value)
    ensures r.None? <==> forall i :: 0 <= i < |line| ==> !IsDigit(line[i])
    ensures r.Some? ==>
      exists q :: 0 <= q < |line| && IsDigit(line[q])
        && (forall i :: 0 <= i < q ==> !IsDigit(line[i]))
        && r.value == line[q..NumberEnd(line, q).value]
  {
    BareNumberSearch(line);
    FindFirst(BareNumber, line)
  }

  /** The bare-number search finds nothing on a line without digits, and
      otherwise the numeral at the line's first digit. */
  lemma BareNumberSearch(line: string)
    ensures FindFirst(BareNumber, line).None? <==> forall i :: 0 <= i < |line| ==> !IsDigit(line[i])
    ensures FindFirst(BareNumber, line).Some? ==>
      exists q :: 0 <= q < |line| && IsDigit(line[q])
        && (forall i :: 0 <= i < q ==> !IsDigit(line[i]))
        && FindFirst(BareNumber, line).value == line[q..NumberEnd(line, q).value]
  {
    match FirstMatchPos(BareNumber, line, 0)
    case None =>
      forall i | 0 <= i < |line|
        ensures !IsDigit(line[i])
      {
        if IsDigit(line[i]) {
          BareNumberAtDigit(line, i);
        }
      }
    case Some(p) =>
      BareNumberStartsWithDigit(line, p);
      BareNumberAtDigit(line, p);
      forall i | 0 <= i < p
        ensures !IsDigit(line[i])
      {
        if IsDigit(line[i]) {
          BareNumberAtDigit(line, i);
        }
      }
  }

  /** The first number is the numeral at the first digit of the line. */
  lemma FirstNumberAt(line: string, q: nat)
    requires q < |line| && IsDigit(line[q])
    requires forall i :: 0 <= i < q ==> !IsDigit(line[i])
    ensures FirstNumber(line) == Some(line[q..NumberEnd(line, q).value])
  {
    FindFirstLeftmost(BareNumber, line, q);
    BareNumberAtDigit(line, q);
    forall i | 0 <= i < q
      ensures MatchAt(BareNumber, line, i).None?
    {
      if MatchAt(BareNumber, line, i).Some? {
        BareNumberStartsWithDigit(line, i);
      }
    }
  }


  /** The bare-number pattern matches wherever a digit stands, and
      captures the numeral that starts there. */
  lemma BareNumberAtDigit(line: string, q: nat)
    requires q < |line| && IsDigit(line[q])
    ensures MatchAt(BareNumber, line, q) == Some(Span(q, NumberEnd(line, q).value))
  {
    var e := NumberEnd(line, q).value;
    assert BareNumber == [Number] + OptionalPercent;
    ExecNumber(OptionalPercent, line, q, None);
    TailRun(OptionalPercent, line, e, Some(Span(q, e)));
  }

  /** The bare-number pattern matches only where a digit stands. */
  lemma BareNumberStartsWithDigit(line: string, q: nat)
    requires q <= |line| && MatchAt(BareNumber, line, q).Some?
    ensures q < |line| && IsDigit(line[q])
  {
  }

  /** What the line scan takes from line `i`: nothing unless the line has
      the word `ef`; then the first number of the line when it is
      plausible, else the first number of the next line, if there is a
      next line and its first number is plausible. */
  function LineCandidate(lines: seq<string>, i: nat): (r: Option<string>)
    requires i < |lines|
    ensures r.Some? ==> IsReading(r.value) && HasWordEf(lines[i])
    ensures r.Some? ==>
      || (Accepts(FirstNumber(lines[i])) && r.value == FirstNumber(lines[i]).value + "%")
      || (i + 1 < |lines| && Accepts(FirstNumber(lines[i + 1])) && r.value == FirstNumber(lines[i + 1]).value + "%")
    ensures HasWordEf(lines[i]) && Accepts(FirstNumber(lines[i])) ==> r == Some(FirstNumber(lines[i]).value + "%")
    ensures HasWordEf(lines[i]) && !Accepts(FirstNumber(lines[i])) && i + 1 < |lines| && Accepts(FirstNumber(lines[i + 1])) ==>
      r == Some(FirstNumber(lines[i + 1]).value + "%")
  {
    if !HasWordEf(lines[i]) then None
    else
      var same := FirstNumber(lines[i]);
      if Accepts(same) then
        ReadingOf(same.value);
        Some(same.value + "%")
      else if i + 1 < |lines| && Accepts(FirstNumber(lines[i + 1])) then
        ReadingOf(FirstNumber(lines[i + 1]).value);
        Some(FirstNumber(lines[i + 1]).value + "%")
      else None
  }

  /** The loop `for i, line in enumerate(lines)`: the first line, from
      `from` on, that yields a value; a line whose candidates are
      implausible does not stop the scan. */
  function FirstYieldingLine(lines: seq<string>, from: nat): (r: Option<nat>)
    requires from <= |lines|
    ensures r.Some? ==> from <= r.value < |lines| && LineCandidate(lines, r.value).Some?
    ensures r.Some? ==> forall j :: from <= j < r.value ==> LineCandidate(lines, j).None?
    ensures r.None? ==> forall j :: from <= j < |lines| ==> LineCandidate(lines, j).None?
  {
    FirstTrue(YieldFlags(lines), from)
  }

  /** For each line, whether the scan takes a value from it. */
  function YieldFlags(lines: seq<string>): (b: seq<bool>)
    ensures |b| == |lines|
    ensures forall i :: 0 <= i < |lines| ==> b[i] == LineCandidate(lines, i).Some?
  {
    seq(|lines|, i requires 0 <= i < |lines| => LineCandidate(lines, i).Some?)
  }

  /** The value the line scan returns: that of the first yielding line. */
  function ScanLines(lines: seq<string>): (r: Option<string>)
    ensures r.Some? ==> IsReading(r.value)
    ensures r.None? <==> forall i :: 0 <= i < |lines| ==> LineCandidate(lines, i).None?
    ensures r.Some? ==>
      exists i :: 0 <= i < |lines| && r == LineCandidate(lines, i)
        && forall j :: 0 <= j < i ==> LineCandidate(lines, j).None?
  {
    match FirstYieldingLine(lines, 0)
    case None => None
    case Some(i) => LineCandidate(lines, i)
  }

  /** The scan takes its value from the first line that yields one. */
  lemma ScanLinesFirst(lines: seq<string>, i: nat)
    requires i < |lines| && LineCandidate(lines, i).Some?
    requires forall j :: 0 <= j < i ==> LineCandidate(lines, j).None?
    ensures ScanLines(lines) == LineCandidate(lines, i)
  {
    FirstYieldingLineIs(lines, i);
  }

  /** The first line that yields is the one `FirstYieldingLine` names. */
  lemma FirstYieldingLineIs(lines: seq<string>, i: nat)
    requires i < |lines| && LineCandidate(lines, i).Some?
    requires forall j :: 0 <= j < i ==> LineCandidate(lines, j).None?
    ensures FirstYieldingLine(lines, 0) == Some(i)
  {
    FirstTrueIs(YieldFlags(lines), i);
  }


  /** `_extract_ef_from_table`: `ef <sep> N` first, then the line scan,
      then `ef <whitespace> N`; each stage reports only a plausible value,
      and a stage that finds nothing plausible hands over to the next. */
  function TableRule(w: string): (r: Option<string>)
    ensures r.Some? ==> IsReading(r.value)
    ensures Accepts(FindFirst(TableEfSeparator, w)) ==> r == Some(FindFirst(TableEfSeparator, w).value + "%")
    ensures !Accepts(FindFirst(TableEfSeparator, w)) && ScanLines(SplitLines(w)).Some? ==> r == ScanLines(SplitLines(w))
    ensures !Accepts(FindFirst(TableEfSeparator, w)) && ScanLines(SplitLines(w)).None? && Accepts(FindFirst(TableEfSpace, w)) ==>
      r == Some(FindFirst(TableEfSpace, w).value + "%")
    ensures r.None? <==>
      && !Accepts(FindFirst(TableEfSeparator, w))
      && ScanLines(SplitLines(w)).None?
      && !Accepts(FindFirst(TableEfSpace, w))
  {
    var separated := FindFirst(TableEfSeparator, w);
    if Accepts(separated) then
      ReadingOf(separated.value);
      Some(separated.value + "%")
    else
      var scanned := ScanLines(SplitLines(w));
      if scanned.Some? then scanned
      else
        var spaced := FindFirst(TableEfSpace, w);
        if Accepts(spaced) then
          ReadingOf(spaced.value);
          Some(spaced.value + "%")
        else None
  }
}

=== FILE: options.dfy ===
/** Optional values: the model's stand-in for Python's `None`. */
module Options {

  datatype Option<+T> = None | Some(value: T)
}

=== FILE: patterns.dfy ===
/** The regular expressions of the checkers, as sequences of matching
    steps, and Python's `re.findall(pattern, s)[0]`.

    Every pattern the checkers use has exactly one capture group,
    `(\d+(?:\.\d+)?)`, and is written so that greedy matching never needs
    to backtrack: each repetition is followed by a step that cannot start
    with a character the repetition accepts, and the group is followed
    only by `\s*%?`, `\s*%` or `\s*%\s*<word>`. On such patterns the
    leftmost match found by a backtracking engine is the one the greedy
    reading below finds at the leftmost position where it succeeds. */
module Patterns {
  import opened Options
  import opened Strings
  import opened Decimal

  /** The character sets used in the patterns: `\s`, `[:\s]`, `[:\-]` and
      a single character. */
  datatype CharClass = Space | ColonOrSpace | ColonOrDash | Only(c: char)

  predicate InClass(cls: CharClass, c: char) {
    match cls
    case Space => IsSpace(c)
    case ColonOrSpace => c == ':' || IsSpace(c)
    case ColonOrDash => c == ':' || c == '-'
    case Only(x) => c == x
  }

  datatype Step =
    | Word(w: string)               // a literal such as `ef`
    | Many(cls: CharClass, min: nat) // `cls*` (min 0) or `cls+` (min 1), greedy
    | One(cls: CharClass)            // exactly one character of `cls`
    | Maybe(c: char)                 // `c?`, greedy
    | Number                         // the capture group `(\d+(?:\.\d+)?)`

  type Pattern = seq<Step>

  /** Where a capture group matched: `s[lo..hi]`. */
  datatype Span = Span(lo: nat, hi: nat)

  /** `r'ejection\s+fraction[:\s]*(\d+(?:\.\d+)?)\s*%?'` */
  const EjectionFraction: Pattern :=
    [Word("ejection"), Many(Space, 1), Word("fraction"), Many(ColonOrSpace, 0), Number, Many(Space, 0), Maybe('%')]
  /** `r'ef[:\s]*(\d+(?:\.\d+)?)\s*%?'` */
  const EfLabel: Pattern :=
    [Word("ef"), Many(ColonOrSpace, 0), Number, Many(Space, 0), Maybe('%')]
  /** `r'(\d+(?:\.\d+)?)\s*%\s*ef'` */
  const PercentEf: Pattern :=
    [Number, Many(Space, 0), One(Only('%')), Many(Space, 0), Word("ef")]
  /** `r'(\d+(?:\.\d+)?)\s*%\s*ejection'` */
  const PercentEjection: Pattern :=
    [Number, Many(Space, 0), One(Only('%')), Many(Space, 0), Word("ejection")]
  /** `r'lvef[:\s]*(\d+(?:\.\d+)?)\s*%?'` */
  const LvefLabel: Pattern :=
    [Word("lvef"), Many(ColonOrSpace, 0), Number, Many(Space, 0), Maybe('%')]
  /** `r'ef\s*(\d+(?:\.\d+)?)\s*%'` */
  const EfPercent: Pattern :=
    [Word("ef"), Many(Space, 0), Number, Many(Space, 0), One(Only('%'))]
  /** `r'ef\s*[:\-]\s*(\d+(?:\.\d+)?)\s*%'` */
  const EfSeparatorPercent: Pattern :=
    [Word("ef"), Many(Space, 0), One(ColonOrDash), Many(Space, 0), Number, Many(Space, 0), One(Only('%'))]
  /** `r'ef\s*=\s*(\d+(?:\.\d+)?)\s*%'` */
  const EfEqualsPercent: Pattern :=
    [Word("ef"), Many(Space, 0), One(Only('=')), Many(Space, 0), Number, Many(Space, 0), One(Only('%'))]
  /** `r'ef\s+(\d+(?:\.\d+)?)\s*%'` */
  const EfSpacePercent: Pattern :=
    [Word("ef"), Many(Space, 1), Number, Many(Space, 0), One(Only('%'))]
  /** `r'ef\s*[:\-]\s*(\d+(?:\.\d+)?)\s*%?'` */
  const TableEfSeparator: Pattern :=
    [Word("ef"), Many(Space, 0), One(ColonOrDash), Many(Space, 0), Number, Many(Space, 0), Maybe('%')]
  /** `r'ef\s+(\d+(?:\.\d+)?)\s*%?'` */
  const TableEfSpace: Pattern :=
    [Word("ef"), Many(Space, 1), Number, Many(Space, 0), Maybe('%')]
  /** `r'(\d+(?:\.\d+)?)\s*%?'` */
  const BareNumber: Pattern :=
    [Number, Many(Space, 0), Maybe('%')]

  /** The end of the longest run of characters of `cls` starting at `i`. */
  function SkipClass(s: string, i: nat, cls: CharClass): (e: nat)
    requires i <= |s|
    ensures i <= e <= |s|
    ensures forall k :: i <= k < e ==> InClass(cls, s[k])
    ensures e == |s| || !InClass(cls, s[e])
    decreases |s| - i
  {
    if i < |s| && InClass(cls, s[i]) then SkipClass(s, i + 1, cls) else i
  }

  /** The end of the longest run of digits starting at `i`. */
  function SkipDigits(s: string, i: nat): (e: nat)
    requires i <= |s|
    ensures i <= e <= |s|
    ensures forall k :: i <= k < e ==> IsDigit(s[k])
    ensures e == |s| || !IsDigit(s[e])
    decreases |s| - i
  {
    if i < |s| && IsDigit(s[i]) then SkipDigits(s, i + 1) else i
  }

  /** Where the greedy group `(\d+(?:\.\d+)?)` ends when it starts at `i`:
      it matches exactly when `s[i]` is a digit, and then it takes the
      longest decimal numeral that starts at `i`. */
  function NumberEnd(s: string, i: nat): (r: Option<nat>)
    requires i <= |s|
    ensures r.Some? <==> i < |s| && IsDigit(s[i])
    ensures r.Some? ==> i < r.value <= |s| && IsDecimal(s[i..r.value])
    ensures r.Some? ==> forall e :: r.value < e <= |s| ==> !IsDecimal(s[i..e])
  {
    if i < |s| && IsDigit(s[i]) then
      var e1 := SkipDigits(s, i);
      LeadingDigitsOfSlice(s, i, e1, e1);
      if e1 + 1 < |s| && s[e1] == '.' && IsDigit(s[e1 + 1]) then
        var e2 := SkipDigits(s, e1 + 1);
        FractionIsDecimal(s, i, e1, e2);
        FractionIsLongest(s, i, e1, e2);
        Some(e2)
      else
        WholeIsLongest(s, i, e1);
        Some(e1)
    else None
  }

  /** A run of digits ended by neither a digit nor a point is the whole
      numeral the group takes. */
  lemma NumberEndOfDigits(s: string, i: nat, n: nat)
    requires 0 < n && i + n <= |s|
    requires forall k :: i <= k < i + n ==> IsDigit(s[k])
    requires i + n == |s| || (!IsDigit(s[i + n]) && s[i + n] != '.')
    ensures NumberEnd(s, i) == Some(i + n)
  {
    LeadingDigitsOfSlice(s, i, i + n, i + n);
    forall e | i + n < e <= |s|
      ensures !IsDecimal(s[i..e])
    {
      LeadingDigitsOfSlice(s, i, i + n, e);
      assert s[i..e][n] == s[i + n];
    }
  }

  lemma LeadingDigitsOfSlice(s: string, i: nat, e1: nat, e: nat)
    requires i <= e1 <= e <= |s|
    requires forall k :: i <= k < e1 ==> IsDigit(s[k])
    requires e1 == |s| || !IsDigit(s[e1])
    ensures LeadingDigits(s[i..e]) == e1 - i
  {
    var d := s[i..e];
    assert forall j :: 0 <= j < e1 - i ==> d[j] == s[i + j];
    LeadingDigitsExact(d, e1 - i);
  }

  /** The leading digits are exactly `n` long when the first `n`
      characters are digits and the next one is not. */
  lemma LeadingDigitsExact(d: string, n: nat)
    requires n <= |d|
    requires forall j :: 0 <= j < n ==> IsDigit(d[j])
    requires n == |d| || !IsDigit(d[n])
    ensures LeadingDigits(d) == n
  {
  }

  lemma FractionIsDecimal(s: string, i: nat, e1: nat, e2: nat)
    requires i < e1 && e1 + 1 < e2 <= |s|
    requires forall k :: i <= k < e1 ==> IsDigit(s[k])
    requires s[e1] == '.'
    requires forall k :: e1 + 1 <= k < e2 ==> IsDigit(s[k])
    ensures IsDecimal(s[i..e2])
  {
    var d := s[i..e2];
    LeadingDigitsOfSlice(s, i, e1, e2);
    assert d[e1 - i] == '.';
    var f := d[e1 - i + 1..];
    assert forall j :: 0 <= j < |f| ==> f[j] == s[e1 + 1 + j];
  }

  lemma WholeIsLongest(s: string, i: nat, e1: nat)
    requires i < e1 <= |s|
    requires forall k :: i <= k < e1 ==> IsDigit(s[k])
    requires e1 == |s| || !IsDigit(s[e1])
    requires !(e1 + 1 < |s| && s[e1] == '.' && IsDigit(s[e1 + 1]))
    ensures IsDecimal(s[i..e1])
    ensures forall e :: e1 < e <= |s| ==> !IsDecimal(s[i..e])
  {
    LeadingDigitsOfSlice(s, i, e1, e1);
    forall e | e1 < e <= |s|
      ensures !IsDecimal(s[i..e])
    {
      var d := s[i..e];
      LeadingDigitsOfSlice(s, i, e1, e);
      var k := e1 - i;
      if d[k] == '.' && k + 1 < |d| {
        assert d[k + 1] == s[e1 + 1];
        assert d[k + 1..][0] == d[k + 1];
      }
    }
  }

  lemma FractionIsLongest(s: string, i: nat, e1: nat, e2: nat)
    requires i < e1 < e2 <= |s|
    requires forall k :: i <= k < e1 ==> IsDigit(s[k])
    requires s[e1] == '.'
    requires e2 == |s| || !IsDigit(s[e2])
    ensures forall e :: e2 < e <= |s| ==> !IsDecimal(s[i..e])
  {
    forall e | e2 < e <= |s|
      ensures !IsDecimal(s[i..e])
    {
      var d := s[i..e];
      LeadingDigitsOfSlice(s, i, e1, e);
      var k := e1 - i;
      assert d[k + 1..][e2 - e1 - 1] == s[e2];
    }
  }

  /** A capture made so far lies before `bound` and spells a numeral. */
  predicate CaptureOk(s: string, cap: Option<Span>, bound: nat) {
    cap.Some? ==>
      && cap.value.lo < cap.value.hi <= bound
      && cap.value.hi <= |s|
      && IsDecimal(s[cap.value.lo..cap.value.hi])
  }

  /** Runs the steps greedily from position `p`, returning the span of the
      capture group when every step succeeds. */
  function Exec(steps: Pattern, s: string, p: nat, cap: Option<Span>): (r: Option<Span>)
    requires p <= |s|
    requires CaptureOk(s, cap, p)
    ensures r.Some? ==> CaptureOk(s, r, |s|)
    ensures r.Some? && cap.None? ==> p <= r.value.lo
    ensures r.Some? && cap.Some? ==> cap.value.lo <= r.value.lo
    ensures r.Some? && Number !in steps ==> r == cap
    decreases |steps|
  {
    if |steps| == 0 then cap
    else
      assert Number !in steps ==> Number !in steps[1..] by {
        assert forall k :: 0 <= k < |steps[1..]| ==> steps[1..][k] == steps[k + 1];
      }
      match steps[0]
      case Word(w) =>
        if OccursAt(s, w, p) then Exec(steps[1..], s, p + |w|, cap) else None
      case Many(cls, min) =>
        var e := SkipClass(s, p, cls);
        if e - p >= min then Exec(steps[1..], s, e, cap) else None
      case One(cls) =>
        if p < |s| && InClass(cls, s[p]) then Exec(steps[1..], s, p + 1, cap) else None
      case Maybe(c) =>
        if p < |s| && s[p] == c then Exec(steps[1..], s, p + 1, cap) else Exec(steps[1..], s, p, cap)
      case Number =>
        match NumberEnd(s, p)
        case None => None
        case Some(e) => Exec(steps[1..], s, e, Some(Span(p, e)))
  }

  /** The capture group of a match of `pat` that starts exactly at `p`. */
  function MatchAt(pat: Pattern, s: string, p: nat): (r: Option<Span>)
    requires p <= |s|
    ensures r.Some? ==> p <= r.value.lo < r.value.hi <= |s| && IsDecimal(s[r.value.lo..r.value.hi])
  {
    Exec(pat, s, p, None)
  }

  /** The leftmost position at or after `from` where `pat` matches. */
  function FirstMatchPos(pat: Pattern, s: string, from: nat): (r: Option<nat>)
    requires from <= |s|
    ensures r.Some? ==> from <= r.value <= |s| && MatchAt(pat, s, r.value).Some?
    ensures r.Some? ==> forall q :: from <= q < r.value ==> MatchAt(pat, s, q).None?
    ensures r.None? ==> forall q :: from <= q <= |s| ==> MatchAt(pat, s, q).None?
    decreases |s| - from
  {
    if MatchAt(pat, s, from).Some? then Some(from)
    else if from == |s| then None
    else FirstMatchPos(pat, s, from + 1)
  }

  /** `re.findall(pat, s)[0]`, or none when the list is empty: the text of
      the group in the leftmost match, which is always a decimal numeral. */
  function FindFirst(pat: Pattern, s: string): (r: Option<string>)
    ensures r.Some? ==> IsDecimal(r.value)
    ensures r.None? <==> forall q :: 0 <= q <= |s| ==> MatchAt(pat, s, q).None?
    ensures r.Some? ==>
      exists p :: 0 <= p <= |s| && MatchAt(pat, s, p).Some?
        && (forall q :: 0 <= q < p ==> MatchAt(pat, s, q).None?)
        && r.value == s[MatchAt(pat, s, p).value.lo..MatchAt(pat, s, p).value.hi]
  {
    match FirstMatchPos(pat, s, 0)
    case None => None
    case Some(p) =>
      var sp := MatchAt(pat, s, p).value;
      Some(s[sp.lo..sp.hi])
  }

  /** Wherever the leftmost match starts, its group is what `FindFirst`
      returns. */
  lemma FindFirstLeftmost(pat: Pattern, s: string, p: nat)
    requires p <= |s| && MatchAt(pat, s, p).Some?
    requires forall q :: 0 <= q < p ==> MatchAt(pat, s, q).None?
    ensures FindFirst(pat, s) == Some(s[MatchAt(pat, s, p).value.lo..MatchAt(pat, s, p).value.hi])
  {
    assert FirstMatchPos(pat, s, 0) == Some(p);
  }

  // ---------------------------------------------------------------------
  // What each pattern matches

  lemma {:induction false} ExecWord(w: string, rest: Pattern, s: string, p: nat, cap: Option<Span>)
    requires p <= |s| && CaptureOk(s, cap, p)
    ensures Exec([Word(w)] + rest, s, p, cap) == if OccursAt(s, w, p) then Exec(rest, s, p + |w|, cap) else None
  {
    assert ([Word(w)] + rest)[1..] == rest;
  }

  lemma {:induction false} ExecMany(cls: CharClass, min: nat, rest: Pattern, s: string, p: nat, cap: Option<Span>)
    requires p <= |s| && CaptureOk(s, cap, p)
    ensures Exec([Many(cls, min)] + rest, s, p, cap) ==
      var e := SkipClass(s, p, cls);
      if e - p >= min then Exec(rest, s, e, cap) else None
  {
    assert ([Many(cls, min)] + rest)[1..] == rest;
  }

  lemma {:induction false} ExecOne(cls: CharClass, rest: Pattern, s: string, p: nat, cap: Option<Span>)
    requires p <= |s| && CaptureOk(s, cap, p)
    ensures Exec([One(cls)] + rest, s, p, cap) ==
      if p < |s| && InClass(cls, s[p]) then Exec(rest, s, p + 1, cap) else None
  {
    assert ([One(cls)] + rest)[1..] == rest;
  }

  lemma {:induction false} ExecNumber(rest: Pattern, s: string, p: nat, cap: Option<Span>)
    requires p <= |s| && CaptureOk(s, cap, p)
    ensures Exec([Number] + rest, s, p, cap) ==
      if p < |s| && IsDigit(s[p]) then Exec(rest, s, NumberEnd(s, p).value, Some(Span(p, NumberEnd(s, p).value))) else None
  {
    assert ([Number] + rest)[1..] == rest;
  }

  /** `\s*%?`, the tail of the patterns whose percent sign is optional. */
  const OptionalPercent: Pattern := [Many(Space, 0), Maybe('%')]
  /** `\s*%`, the tail of the patterns that require a percent sign. */
  const RequiredPercent: Pattern := [Many(Space, 0), One(Only('%'))]

  predicate IsTail(tail: Pattern) {
    tail == OptionalPercent || tail == RequiredPercent
  }

  /** The tail matches after the numeral ending at `e`: always for
      `\s*%?`, and for `\s*%` when a `%` follows the whitespace. */
  predicate TailOk(tail: Pattern, s: string, e: nat)
    requires e <= |s|
  {
    tail == RequiredPercent ==>
      var k := SkipClass(s, e, Space);
      k < |s| && s[k] == '%'
  }

  /** A tail never changes the capture: it only decides whether the match
      succeeds. */
  lemma {:induction false} TailRun(tail: Pattern, s: string, e: nat, cap: Option<Span>)
    requires IsTail(tail) && e <= |s| && CaptureOk(s, cap, e)
    ensures Exec(tail, s, e, cap) == if TailOk(tail, s, e) then cap else None
  {
    var k := SkipClass(s, e, Space);
    assert Exec(tail, s, e, cap) == Exec(tail[1..], s, k, cap);
    if tail == OptionalPercent {
      assert tail[1..] == [Maybe('%')];
      assert [Maybe('%')][1..] == [];
    } else {
      assert tail[1..] == [One(Only('%'))];
      assert [One(Only('%'))][1..] == [];
    }
  }

  /** `w cls{min,}(\d+(?:\.\d+)?)` and a tail: matches at `p` exactly
      when `w` occurs at `p`, at least `min` characters of `cls` follow
      it, a digit comes next and the tail matches after the numeral; the
      capture is the longest numeral at that digit. */
  lemma {:induction false} LabelledNumber(w: string, cls: CharClass, min: nat, tail: Pattern, s: string, p: nat)
    requires p <= |s| && IsTail(tail)
    ensures !OccursAt(s, w, p) ==> MatchAt([Word(w), Many(cls, min), Number] + tail, s, p).None?
    ensures OccursAt(s, w, p) ==>
      var e := SkipClass(s, p + |w|, cls);
      MatchAt([Word(w), Many(cls, min), Number] + tail, s, p) ==
        if e - (p + |w|) >= min && e < |s| && IsDigit(s[e]) && TailOk(tail, s, NumberEnd(s, e).value)
        then Some(Span(e, NumberEnd(s, e).value))
        else None
  {
    var p2 := [Number] + tail;
    var p1 := [Many(cls, min)] + p2;
    assert [Word(w), Many(cls, min), Number] + tail == [Word(w)] + p1;
    ExecWord(w, p1, s, p, None);
    if OccursAt(s, w, p) {
      var e := SkipClass(s, p + |w|, cls);
      ExecMany(cls, min, p2, s, p + |w|, None);
      ExecNumber(tail, s, e, None);
      if e < |s| && IsDigit(s[e]) {
        var x := NumberEnd(s, e).value;
        TailRun(tail, s, x, Some(Span(e, x)));
      }
    }
  }

  /** `w\s*<sep>\s*(\d+(?:\.\d+)?)` and a tail: matches at `p` exactly
      when `w` occurs at `p` and the separator, the numeral and the tail
      match after the whitespace that follows it (see
      `SeparatorThenNumber`). */
  lemma {:induction false} SeparatedNumber(w: string, sep: CharClass, tail: Pattern, s: string, p: nat)
    requires p <= |s| && IsTail(tail)
    ensures MatchAt([Word(w), Many(Space, 0), One(sep), Many(Space, 0), Number] + tail, s, p) ==
      if OccursAt(s, w, p)
      then Exec([One(sep), Many(Space, 0), Number] + tail, s, SkipClass(s, p + |w|, Space), None)
      else None
  {
    var p2 := [One(sep), Many(Space, 0), Number] + tail;
    var p1 := [Many(Space, 0)] + p2;
    SeparatedSplit(w, sep, tail);
    ExecWord(w, p1, s, p, None);
    if OccursAt(s, w, p) {
      ExecMany(Space, 0, p2, s, p + |w|, None);
    }
  }

  lemma SeparatedSplit(w: string, sep: CharClass, tail: Pattern)
    ensures [Word(w), Many(Space, 0), One(sep), Many(Space, 0), Number] + tail
      == [Word(w)] + ([Many(Space, 0)] + ([One(sep), Many(Space, 0), Number] + tail))
  {
  }

  /** `<sep>\s*(\d+(?:\.\d+)?)` and a tail, from `a` on: matches
      exactly when a separator stands at `a`, a digit follows after any
      whitespace, and the tail matches after the numeral, which is the
      capture. */
  lemma {:induction false} SeparatorThenNumber(sep: CharClass, tail: Pattern, s: string, a: nat)
    requires a <= |s| && IsTail(tail)
    ensures Exec([One(sep), Many(Space, 0), Number] + tail, s, a, None) ==
      if a < |s| && InClass(sep, s[a]) then
        var e := SkipClass(s, a + 1, Space);
        if e < |s| && IsDigit(s[e]) && TailOk(tail, s, NumberEnd(s, e).value)
        then Some(Span(e, NumberEnd(s, e).value))
        else None
      else None
  {
    var p4 := [Number] + tail;
    var p3 := [Many(Space, 0)] + p4;
    assert [One(sep), Many(Space, 0), Number] + tail == [One(sep)] + p3;
    ExecOne(sep, p3, s, a, None);
    if a < |s| && InClass(sep, s[a]) {
      var e := SkipClass(s, a + 1, Space);
      ExecMany(Space, 0, p4, s, a + 1, None);
      ExecNumber(tail, s, e, None);
      if e < |s| && IsDigit(s[e]) {
        var x := NumberEnd(s, e).value;
        TailRun(tail, s, x, Some(Span(e, x)));
      }
    }
  }

  /** A word followed by at least one whitespace character, in front of
      any pattern: matches at `p` exactly when the word occurs there and
      the rest matches after the whitespace run, with the same capture. */
  lemma {:induction false} WordThenSpaces(w: string, rest: Pattern, s: string, p: nat)
    requires p <= |s|
    ensures !OccursAt(s, w, p) ==> MatchAt([Word(w), Many(Space, 1)] + rest, s, p).None?
    ensures OccursAt(s, w, p) ==>
      var a := SkipClass(s, p + |w|, Space);
      MatchAt([Word(w), Many(Space, 1)] + rest, s, p) ==
        if a > p + |w| then MatchAt(rest, s, a) else None
  {
    assert [Word(w), Many(Space, 1)] + rest == [Word(w)] + ([Many(Space, 1)] + rest);
    ExecWord(w, [Many(Space, 1)] + rest, s, p, None);
    if OccursAt(s, w, p) {
      ExecMany(Space, 1, rest, s, p + |w|, None);
    }
  }

  /** `(\d+(?:\.\d+)?)\s*%\s*w`. */
  function NumberPercentThen(w: string): Pattern {
    [Number, Many(Space, 0), One(Only('%')), Many(Space, 0), Word(w)]
  }

  /** `(\d+(?:\.\d+)?)\s*%\s*w`: matches at `p` exactly when a digit
      stands there, a `%` follows the numeral after any whitespace, and
      `w` follows after any further whitespace; it captures the numeral. */
  lemma {:induction false} NumberPercentWord(w: string, s: string, p: nat)
    requires p <= |s|
    ensures !(p < |s| && IsDigit(s[p])) ==> MatchAt(NumberPercentThen(w), s, p).None?
    ensures p < |s| && IsDigit(s[p]) ==>
      var x := NumberEnd(s, p).value;
      var a := SkipClass(s, x, Space);
      MatchAt(NumberPercentThen(w), s, p) ==
        if a < |s| && s[a] == '%' && OccursAt(s, w, SkipClass(s, a + 1, Space))
        then Some(Span(p, x))
        else None
  {
    var p1 := [Many(Space, 0), One(Only('%')), Many(Space, 0), Word(w)];
    assert NumberPercentThen(w) == [Number] + p1;
    ExecNumber(p1, s, p, None);
    if p < |s| && IsDigit(s[p]) {
      var x := NumberEnd(s, p).value;
      PercentWordAfter(w, s, x, SkipClass(s, x, Space), Some(Span(p, x)));
    }
  }

  /** The part `\s*%\s*w` after a numeral ending at `x`. */
  lemma {:induction false} PercentWordAfter(w: string, s: string, x: nat, a: nat, cap: Option<Span>)
    requires x <= |s| && CaptureOk(s, cap, x) && a == SkipClass(s, x, Space)
    ensures Exec([Many(Space, 0), One(Only('%')), Many(Space, 0), Word(w)], s, x, cap) ==
      if a < |s| && s[a] == '%' && OccursAt(s, w, SkipClass(s, a + 1, Space)) then cap else None
  {
    var p4 := [Word(w)];
    var p3 := [Many(Space, 0)] + p4;
    var p2 := [One(Only('%'))] + p3;
    assert [Many(Space, 0), One(Only('%')), Many(Space, 0), Word(w)] == [Many(Space, 0)] + p2;
    ExecMany(Space, 0, p2, s, x, cap);
    ExecOne(Only('%'), p3, s, a, cap);
    if a < |s| && s[a] == '%' {
      var b := SkipClass(s, a + 1, Space);
      ExecMany(Space, 0, p4, s, a + 1, cap);
      assert p4 == [Word(w)] + [];
      ExecWord(w, [], s, b, cap);
    }
  }



  /** `ef[:\s]*N\s*%?` matches at `p` exactly when `ef` stands there and,
      after any colons and whitespace, a digit; the capture is the
      numeral at that digit, whatever follows it. */
  lemma {:induction false} EfLabelMatch(s: string, p: nat)
    requires p <= |s|
    ensures !OccursAt(s, "ef", p) ==> MatchAt(EfLabel, s, p).None?
    ensures OccursAt(s, "ef", p) ==>
      var e := SkipClass(s, p + 2, ColonOrSpace);
      MatchAt(EfLabel, s, p) == if e < |s| && IsDigit(s[e]) then Some(Span(e, NumberEnd(s, e).value)) else None
  {
    assert EfLabel == [Word("ef"), Many(ColonOrSpace, 0), Number] + OptionalPercent;
    LabelledNumber("ef", ColonOrSpace, 0, OptionalPercent, s, p);
  }

  /** The twelve patterns are instances of the shapes above. */
  lemma PatternShapes()
    ensures EjectionFraction == [Word("ejection"), Many(Space, 1)] + ([Word("fraction"), Many(ColonOrSpace, 0), Number] + OptionalPercent)
    ensures EfLabel == [Word("ef"), Many(ColonOrSpace, 0), Number] + OptionalPercent
    ensures LvefLabel == [Word("lvef"), Many(ColonOrSpace, 0), Number] + OptionalPercent
    ensures TableEfSpace == [Word("ef"), Many(Space, 1), Number] + OptionalPercent
    ensures EfPercent == [Word("ef"), Many(Space, 0), Number] + RequiredPercent
    ensures EfSpacePercent == [Word("ef"), Many(Space, 1), Number] + RequiredPercent
    ensures EfSeparatorPercent == [Word("ef"), Many(Space, 0), One(ColonOrDash), Many(Space, 0), Number] + RequiredPercent
    ensures EfEqualsPercent == [Word("ef"), Many(Space, 0), One(Only('=')), Many(Space, 0), Number] + RequiredPercent
    ensures TableEfSeparator == [Word("ef"), Many(Space, 0), One(ColonOrDash), Many(Space, 0), Number] + OptionalPercent
    ensures PercentEf == NumberPercentThen("ef")
    ensures PercentEjection == NumberPercentThen("ejection")
  {
  }
}

=== FILE: pipeline.dfy ===
/** What holds when the readings of either checker go through
    `check_consistency`, as the command-line entry points do. */
module Pipeline {
  import opened Options
  import opened Strings
  import opened Decimal
  import opened Extraction
  import opened Consistency
  import EFChecker
  import EFFallbackChecker

  lemma DecimalHasNoPercent(d: string)
    requires IsDecimal(d)
    ensures '%' !in d
  {
    var k := LeadingDigits(d);
    assert forall i :: 0 <= i < k ==> d[i] != '%';
    if k < |d| {
      var f := d[k + 1..];
      assert forall i :: k + 1 <= i < |d| ==> d[i] == f[i - k - 1];
    }
  }

  lemma {:induction false} RemoveTrailing(d: string, c: char)
    requires c !in d
    ensures RemoveAll(d + [c], c) == d
    decreases |d|
  {
    if |d| == 0 {
      assert d + [c] == [c];
    } else {
      assert (d + [c])[1..] == d[1..] + [c];
      RemoveTrailing(d[1..], c);
      assert d == [d[0]] + d[1..];
    }
  }

  /** A reading the extractors emit parses, as `check_consistency` parses
      it, to a number within [10, 90]. */
  lemma ReadingParsesInRange(v: string)
    requires IsReading(v)
    ensures Parsed(Some(v)).Some?
    ensures 10.0 <= Parsed(Some(v)).value <= 90.0
  {
    var d := v[..|v| - 1];
    assert v == d + "%";
    DecimalHasNoPercent(d);
    RemoveTrailing(d, '%');
    assert v != "None" by {
      assert "None"[3] != '%';
    }
  }

  /** Readings with the three keys, each absent or plausible, give a
      verdict whose numbers all lie in [10, 90], and `Error` exactly when
      all three are absent. */
  lemma VerdictOfPlausibleReadings(values: Reading)
    requires values.Keys == {Conclusion, Text, Calcs}
    requires forall k :: k in values && values[k].Some? ==> IsReading(values[k].value)
    ensures var r := CheckConsistency(values);
      && (r.numericValues.Some? ==> forall k :: k in r.numericValues.value ==> 10.0 <= r.numericValues.value[k] <= 90.0)
      && (r.status == Error <==> values[Conclusion].None? && values[Text].None? && values[Calcs].None?)
  {
    PlausibleReadingsParse(values);
    VerdictNumbersInRange(values);
    AnyParsesIffPresent(values);
  }

  lemma VerdictNumbersInRange(values: Reading)
    requires forall k :: k in values && Parsed(values[k]).Some? ==> 10.0 <= Parsed(values[k]).value <= 90.0
    ensures var r := CheckConsistency(values);
      r.numericValues.Some? ==> forall k :: k in r.numericValues.value ==> 10.0 <= r.numericValues.value[k] <= 90.0
  {
    var r := CheckConsistency(values);
    if r.numericValues.Some? {
      var m := r.numericValues.value;
      forall k | k in m
        ensures 10.0 <= m[k] <= 90.0
      {
        assert k in values && Parsed(values[k]) == Some(m[k]);
      }
    }
  }

  lemma AnyParsesIffPresent(values: Reading)
    requires values.Keys == {Conclusion, Text, Calcs}
    requires forall k :: k in values ==> (Parsed(values[k]).Some? <==> values[k].Some?)
    ensures AnyParses(values) <==> values[Conclusion].Some? || values[Text].Some? || values[Calcs].Some?
  {
    if values[Conclusion].Some? {
      assert Parsed(values[Conclusion]).Some?;
    } else if values[Text].Some? {
      assert Parsed(values[Text]).Some?;
    } else if values[Calcs].Some? {
      assert Parsed(values[Calcs]).Some?;
    } else {
      forall k | k in values
        ensures Parsed(values[k]).None?
      {
        assert k == Conclusion || k == Text || k == Calcs;
      }
    }
  }

  /** Exactly the present readings parse, each to a number in [10, 90]. */
  lemma PlausibleReadingsParse(values: Reading)
    requires forall k :: k in values && values[k].Some? ==> IsReading(values[k].value)
    ensures forall k :: k in values ==> (Parsed(values[k]).Some? <==> values[k].Some?)
    ensures forall k :: k in values && Parsed(values[k]).Some? ==> 10.0 <= Parsed(values[k]).value <= 90.0
  {
    forall k | k in values && values[k].Some?
      ensures Parsed(values[k]).Some? && 10.0 <= Parsed(values[k]).value <= 90.0
    {
      ReadingParsesInRange(values[k].value);
    }
  }

  /** `EFChecker` end to end: no implausible number reaches the verdict,
      and the verdict is `Error` exactly when no region yields a value. */
  lemma PrimaryVerdict(text: string, direct: Option<string>)
    ensures var values := EFChecker.ExtractEFValues(text, direct);
      var r := CheckConsistency(values);
      && r.values == values
      && (r.numericValues.Some? ==> forall k :: k in r.numericValues.value ==> 10.0 <= r.numericValues.value[k] <= 90.0)
      && (r.status == Error <==> values[Conclusion].None? && values[Text].None? && values[Calcs].None?)
  {
    VerdictOfPlausibleReadings(EFChecker.ExtractEFValues(text, direct));
  }

  /** `EFFallbackChecker` end to end, with the same guarantees. */
  lemma FallbackVerdict(text: string)
    ensures var values := EFFallbackChecker.ExtractEFValues(text);
      var r := CheckConsistency(values);
      && r.values == values
      && (r.numericValues.Some? ==> forall k :: k in r.numericValues.value ==> 10.0 <= r.numericValues.value[k] <= 90.0)
      && (r.status == Error <==> values[Conclusion].None? && values[Text].None? && values[Calcs].None?)
  {
    VerdictOfPlausibleReadings(EFFallbackChecker.ExtractEFValues(text));
  }

  /** A numeral followed by `%` parses to the numeral's value. */
  lemma PercentReading(d: string, x: real)
    requires '%' !in d && ParseFloat(d) == Some(x)
    ensures Parsed(Some(d + "%")) == Some(x)
  {
    var v := d + "%";
    RemoveTrailing(d, '%');
    assert v != "None" by {
      if |d| == 3 {
        assert v[3] != "None"[3];
      }
    }
    assert v != "";
  }

  /** Two regions that parse to the same number, and nothing else, give
      `Good`. */
  lemma TwoAgreeingGood(u: string, v: string, a: Region, b: Region, x: real)
    requires a != b
    requires Parsed(Some(u)) == Some(x) && Parsed(Some(v)) == Some(x)
    ensures CheckConsistency(map[a := Some(u), b := Some(v)]).status == Good
  {
    var values := map[a := Some(u), b := Some(v)];
    assert forall k :: k in values ==> Parsed(values[k]) == Some(x);
    assert AnyParses(values) by {
      assert a in values && Parsed(values[a]).Some?;
    }
    assert AllAgree(values);
  }

  lemma DigitsHaveNoPercent(s: string)
    requires AllDigits(s)
    ensures '%' !in s && '%' !in s + ".0"
  {
  }

  /** `N%` parses to `N`. */
  lemma WholeReading(n: nat)
    ensures Parsed(Some(NatToString(n) + "%")) == Some(n as real)
  {
    var s := NatToString(n);
    NatRoundTrip(n);
    DigitsHaveNoPercent(s);
    PercentReading(s, n as real);
  }

  /** A digit string with `.0%` appended parses to the digits' value. */
  lemma PointZeroPercent(s: string, x: real)
    requires |s| > 0 && AllDigits(s) && ParseFloat(s) == Some(x)
    ensures Parsed(Some(s + ".0%")) == Some(x)
  {
    var d := s + ".0";
    PointZeroSameValue(s);
    DigitsHaveNoPercent(s);
    PercentReading(d, x);
    assert s + ".0%" == d + "%";
  }

  /** `N.0%` parses to `N`. */
  lemma PointZeroReading(n: nat)
    ensures Parsed(Some(NatToString(n) + ".0%")) == Some(n as real)
  {
    NatRoundTrip(n);
    PointZeroPercent(NatToString(n), n as real);
  }

  /** `55%` and `55.0%` agree: a whole number and the same number written
      with a zero fraction, in any two regions, give `Good`. */
  lemma ZeroFractionAgrees(n: nat, a: Region, b: Region)
    requires a != b
    ensures var s := NatToString(n);
      var values := map[a := Some(s + "%"), b := Some(s + ".0%")];
      CheckConsistency(values).status == Good
  {
    WholeReading(n);
    PointZeroReading(n);
    TwoAgreeingGood(NatToString(n) + "%", NatToString(n) + ".0%", a, b, n as real);
  }

  /** `W.F%` and `W%` in two regions, such as `55.5%` and `55%`, give
      `Discordant` whenever the fraction has a non-zero digit. */
  lemma FractionDiscordant(w: string, f: string, a: Region, b: Region)
    requires |w| > 0 && AllDigits(w) && AllDigits(f) && DigitsValue(f) > 0
    requires a != b
    ensures CheckConsistency(map[a := Some(w + "." + f + "%"), b := Some(w + "%")]).status == Discordant
  {
    var values := map[a := Some(w + "." + f + "%"), b := Some(w + "%")];
    FractionKept(w, f);
    FractionReading(w, f);
    DigitsHaveNoPercent(w);
    PercentReading(w, ParseFloat(w).value);
    assert values[a] == Some(w + "." + f + "%") && values[b] == Some(w + "%");
    DifferentNumbersDiscordant(values, a, b);
  }

  lemma FractionReading(w: string, f: string)
    requires |w| > 0 && AllDigits(w) && AllDigits(f) && ParseFloat(w + "." + f).Some?
    ensures Parsed(Some(w + "." + f + "%")) == ParseFloat(w + "." + f)
  {
    var d := w + "." + f;
    DigitsHaveNoPercent(w);
    DigitsHaveNoPercent(f);
    assert '%' !in d by {
      assert forall i :: 0 <= i < |d| ==> d[i] == if i < |w| then w[i] else if i == |w| then '.' else f[i - |w| - 1];
    }
    PercentReading(d, ParseFloat(d).value);
  }

  /** Two regions with different numbers are discordant, whatever the
      third holds. */
  lemma DifferentNumbersDiscordant(values: Reading, a: Region, b: Region)
    requires a in values && b in values
    requires Parsed(values[a]).Some? && Parsed(values[b]).Some?
    requires Parsed(values[a]) != Parsed(values[b])
    ensures CheckConsistency(values).status == Discordant
  {
  }
}

=== FILE: strings.dfy ===
/** Character classes and string operations the checkers rely on: the
    ASCII meaning of `\d`, `\s` and `\w`, `str.lower`, `str.find` and
    `str.split('\n')`. */
module Strings {
  import opened Options

  /** `\d` on ASCII text. */
  predicate IsDigit(c: char) {
    '0' <= c <= '9'
  }

  /** `\s` on ASCII text, i.e. `str.isspace()`: space, the controls
      tab..carriage return, and the separators 0x1c..0x1f. */
  predicate IsSpace(c: char) {
    c == ' ' || 9 <= c as int <= 13 || 28 <= c as int <= 31
  }

  /** `\w` on ASCII text. */
  predicate IsWordChar(c: char) {
    'a' <= c <= 'z' || 'A' <= c <= 'Z' || IsDigit(c) || c == '_'
  }

  predicate IsUpper(c: char) {
    'A' <= c <= 'Z'
  }

  function LowerChar(c: char): char {
    if IsUpper(c) then (c as int + 32) as char else c
  }

  /** `str.lower()` on ASCII text: upper-case letters become lower-case,
      every other character is kept, and the length does not change. */
  function Lower(s: string): (r: string)
    ensures |r| == |s|
    ensures forall i :: 0 <= i < |s| ==> !IsUpper(r[i])
    ensures forall i :: 0 <= i < |s| && !IsUpper(s[i]) ==> r[i] == s[i]
    ensures forall i :: 0 <= i < |s| && IsUpper(s[i]) ==> r[i] as int == s[i] as int + 32
  {
    seq(|s|, i requires 0 <= i < |s| => LowerChar(s[i]))
  }

  /** Lowering twice is lowering once. */
  lemma LowerIdempotent(s: string)
    ensures Lower(Lower(s)) == Lower(s)
  {
    var l := Lower(s);
    assert forall i :: 0 <= i < |l| ==> Lower(l)[i] == l[i];
  }

  /** `w` occurs in `t` starting at index `q`. */
  predicate OccursAt(t: string, w: string, q: nat) {
    q + |w| <= |t| && t[q..q + |w|] == w
  }

  /** `t.find(w)`: the lowest index at which `w` occurs, or none. */
  function Find(t: string, w: string): (r: Option<nat>)
    ensures r.Some? ==> OccursAt(t, w, r.value)
    ensures r.Some? ==> forall q: nat :: q < r.value ==> !OccursAt(t, w, q)
    ensures r.None? <==> forall q: nat :: !OccursAt(t, w, q)
  {
    FindFrom(t, w, 0)
  }

  function FindFrom(t: string, w: string, from: nat): (r: Option<nat>)
    requires from <= |t|
    ensures r.Some? ==> from <= r.value && OccursAt(t, w, r.value)
    ensures r.Some? ==> forall q: nat :: from <= q < r.value ==> !OccursAt(t, w, q)
    ensures r.None? ==> forall q: nat :: from <= q ==> !OccursAt(t, w, q)
    decreases |t| - from
  {
    if OccursAt(t, w, from) then Some(from)
    else if from == |t| then None
    else FindFrom(t, w, from + 1)
  }

  /** The index of the first `c` in `s`, or none. */
  function IndexOf(s: string, c: char): (r: Option<nat>)
    ensures r.Some? ==> r.value < |s| && s[r.value] == c && c !in s[..r.value]
    ensures r.None? ==> c !in s
  {
    if |s| == 0 then None
    else if s[0] == c then Some(0)
    else match IndexOf(s[1..], c)
      case None => None
      case Some(i) => assert s[..i + 1] == [s[0]] + s[1..][..i]; Some(i + 1)
  }

  /** `IndexOf` finds any occurrence with none before it. */
  lemma {:induction false} IndexOfFirst(s: string, c: char, i: nat)
    requires i < |s| && s[i] == c && c !in s[..i]
    ensures IndexOf(s, c) == Some(i)
    decreases i
  {
    if i > 0 {
      assert s[..i][0] == s[0];
      assert s[1..][..i - 1] == s[1..i];
      assert s[1..i] == s[..i][1..];
      IndexOfFirst(s[1..], c, i - 1);
    }
  }

  /** `'\n'.join(lines)`. */
  function JoinLines(lines: seq<string>): string
    decreases |lines|
  {
    if |lines| == 0 then ""
    else if |lines| == 1 then lines[0]
    else lines[0] + "\n" + JoinLines(lines[1..])
  }

  /** `s.split('\n')`: at least one piece, no piece holds a newline, and
      joining the pieces with newlines gives back `s`. */
  function SplitLines(s: string): (lines: seq<string>)
    ensures |lines| > 0
    ensures forall i :: 0 <= i < |lines| ==> '\n' !in lines[i]
    ensures JoinLines(lines) == s
    decreases |s|
  {
    match IndexOf(s, '\n')
    case None => [s]
    case Some(i) =>
      var rest := SplitLines(s[i + 1..]);
      assert s == s[..i] + "\n" + s[i + 1..];
      assert ([s[..i]] + rest)[1..] == rest;
      [s[..i]] + rest
  }

  /** The split is the only way to cut `s` into newline-free lines. */
  lemma {:induction false} SplitLinesUnique(lines: seq<string>, s: string)
    requires |lines| > 0
    requires forall i :: 0 <= i < |lines| ==> '\n' !in lines[i]
    requires JoinLines(lines) == s
    ensures SplitLines(s) == lines
    decreases |lines|
  {
    if |lines| == 1 {
      assert s == lines[0];
    } else {
      var a, rest := lines[0], lines[1..];
      assert s == a + "\n" + JoinLines(rest);
      var i := |a|;
      assert s[i] == '\n';
      assert s[..i] == a;
      assert IndexOf(s, '\n') == Some(i);
      assert s[i + 1..] == JoinLines(rest);
      assert forall k :: 0 <= k < |rest| ==> '\n' !in rest[k] by {
        forall k | 0 <= k < |rest| ensures '\n' !in rest[k] {
          assert rest[k] == lines[k + 1];
        }
      }
      SplitLinesUnique(rest, JoinLines(rest));
    }
  }
}
